=== FILE: README.md ===
# financetools payoff engine, in Dafny

A model of the loan-payoff engine of `financetools`, with proofs about it. The engine has three parts:

- **`Loan`**: one amortising debt with an append-only payment ledger.
- **`LoanQueue`**: an ordered list of loans that share one monthly budget. It can be paid off by five strategies: avalanche, blizzard, snowball, cascade and ice_slide.
- **`LoanQueueCompare`**: a grid of solved queues, ranked by interest paid, duration or number of payments.

Units:

- Money is a whole number of cents.
- Rates are whole hundredths of a percent. This is what `Loan.Dec` stores: a value quantized to two places, rounding half up.
- Intermediate amounts, such as the interest due, the principal portion, a spread's extras and the annuity discount factor, are exact reals counted in cents. They are rounded only when they are written to a loan or the ledger, as the Python code does.

Python exceptions become the `Failure` case of `Outcomes.Result`:

- `TypeError`, `ValueError` and `IndexError` map to constructors of the same name.
- Decimal's `x/0` maps to `ZeroDivision`.
- Decimal's `0/0`, `0**0` and an infinity divided by an infinity map to `InvalidOperation`. Decimal's `0**-n` is a positive infinity, with no signal.
- An unbound local name maps to `UnboundName`.
- Loops that need not end get a fuel bound and fail with `OutOfFuel`, or answer `None`.

| file | module | models |
|---|---|---|
| `outcomes.dfy` | `Outcomes` | results, errors, options |
| `money.dfy` | `Money` | `Loan.Dec` and half-up rounding |
| `seqs.dfy` | `Seqs` | `sum`, list comprehensions and filters over lists |
| `stable_sort.dfy` | `StableSort` | `list.sort(key=..., reverse=...)` as a stable sort |
| `loan.dfy` | `Loans` | `financetools/loan.py` |
| `loan_queue.dfy` | `LoanQueues` | `financetools/loan_queue.py`, except `debt_solve` and `finish` |
| `loan_queue_compare.dfy` | `Comparisons` | `financetools/loan_queue_compare.py` |
| `debt_solve.dfy` | `Strategies` | `debt_solve`, the five strategy wrappers and `finish` |

The objects in the code mutate their lists in place. The model uses immutable values: every operation returns the new loan or queue.

An underpayment is modelled as the code computes it. `pay_month` computes the balance forward before it handles the underpayment, so interest the payment does not cover is added to the balance, while the ledger records principal 0 and interest equal to the payment. The comment in `pay_month` (`financetools/loan.py:240-243`) says the whole payment goes to interest, but the balance forward computed at line 238 already carries the uncovered interest.

`debt_solve` is modelled by one driver, `Strategies.Drive`, parameterised by the round it runs. There are two nested loops:

- The inner loop runs rounds while no loan still being paid is paid off.
- The outer loop then moves the paid-off loans to the completed queue.

Each round:

1. For blizzard, reorders the queue.
2. Sets the minimum payments.
3. Distributes what is left of the budget.
4. Calls `pay_month` once on every loan.

The driver's result reports two extra counts: the rounds it ran and the `pay_month` calls it made. They are what the completed queue's duration and number of payments are proved equal to.

## Model

| member | source | states |
|---|---|---|
| Money.Round | financetools/loan.py:109-114 | the result is within half a unit of its argument, with exact halves going away from zero, and it keeps the argument's sign |
| Money.RoundUnique | financetools/loan.py:109-114 | any integer inside Round's half-open window is the rounded value, so Round is fully determined by its bounds |
| Money.RoundNearest | financetools/loan.py:109-114 | no integer is closer to x than Round(x) |
| Money.RoundMonotone | financetools/loan.py:109-114 | rounding keeps the order of its arguments |
| Money.Dec | financetools/loan.py:109-114 | a quantized amount is 100·x rounded half away from zero: within half a hundredth of the exact value, and on an exact half the hundredth further from zero |
| Money.DecIdempotent | financetools/loan.py:109-114 | quantizing a quantized amount changes nothing |
| Money.DecOfHundredths | financetools/loan.py:109-114 | a whole number of cents survives quantization, which is what makes branching a loan lossless |
| Seqs.SumOfPermutation | financetools/loan_queue.py:54-64 | a queue total does not depend on the order of the loans |
| Seqs.Filter | financetools/loan_queue.py:250-253 | the paid-off list holds exactly the loans that satisfy the test, and is strictly shorter than the queue when some loan fails it |
| Seqs.FilterPartition | financetools/loan_queue.py:250-253 | the paid-off and the unfinished loans together are the queue, as a multiset |
| StableSort.SortBy | financetools/loan_queue.py:101-117 | list.sort returns a permutation of its input that is ordered by the key |
| StableSort.SortByStable | financetools/loan_queue.py:101-117 | elements with equal keys keep their input order (list.sort is stable, also with reverse=True) |
| StableSort.SortByIdempotent | financetools/loan_queue.py:101-117 | sorting a sorted list by the same key returns it unchanged |
| Loans.NewLoan | financetools/loan.py:15-85 | a new loan has one ledger record {start balance, 0, 0, 0}; its amounts are quantized; a missing payment reads as 0; a missing or zero term becomes 12 |
| Loans.CurrentBal | financetools/loan.py:149-151 | the balance of the ledger's last record |
| Loans.PayNo | financetools/loan.py:153-155 | the pay number of the ledger's last record; PayNoCountsPayments shows it counts the payments |
| Loans.IsComplete | financetools/loan.py:117-118 | the ledger's last balance is 0; payoff's loop and debt_solve's pop both test it |
| Loans.PayNoCountsPayments | financetools/loan.py:220-224 | on a well-formed loan the payment number is the number of payments in the ledger |
| Loans.MonthlyRate | financetools/loan.py:160-161 | a twelfth of the annual rate, as a fraction; it has no contract of its own and enters IntDue |
| Loans.IntDue | financetools/loan.py:163-164 | the month's interest on the current balance, unrounded; IntDueNonNegative and IntDueMonotone state its properties |
| Loans.IntDueNonNegative | financetools/loan.py:163-164 | at a non-negative rate a non-negative balance owes non-negative interest |
| Loans.IntDueMonotone | financetools/loan.py:160-164 | at a non-negative rate a lower balance never owes more interest |
| Loans.InstallPayment | financetools/loan.py:220-224 | appends one record whose pay number is one more than the last, with each amount the value given rounded half away from zero to the cent; the terms and the earlier ledger are untouched |
| Loans.PayMonth | financetools/loan.py:227-248 | one record is appended and nothing else changes. An overpayment pays exactly the balance and leaves 0. An underpayment records principal 0 and interest equal to the payment, and raises the balance by the uncovered interest. An ordinary payment records the rounded interest due and the rounded principal portion, and the new balance is the old balance less the principal portion, rounded; the recorded principal differs from the fall in balance by at most a cent |
| Loans.PaymentLowersBalanceIff | financetools/loan.py:227-248 | a payment lowers a positive balance if and only if its principal portion exceeds half a cent |
| Loans.PayMonths | financetools/loan.py:251-256 | pay_month m times, stopping early at a complete loan; PayMonthsFacts and PayMonthsCompose state what it keeps |
| Loans.PayMonthsFacts | financetools/loan.py:251-256 | pay_months(m) keeps the loan's terms and only extends the ledger, by at most m payments, never one on a zero balance, and stops early only when the loan is paid off |
| Loans.PayMonthsCompose | financetools/loan.py:251-256 | paying a months and then b months is the same as paying a + b months |
| Loans.PayoffStep | financetools/loan.py:259-268 | a payment whose principal portion exceeds half a cent strictly lowers the balance, and at a non-negative rate the next payment does so too |
| Loans.CanPayoff | financetools/loan.py:267-268 | the payment exceeds the interest due; PayoffAsWrittenStalls shows that this does not make payoff finish |
| Loans.PayUntilComplete | financetools/loan.py:261-262 | the while loop of payoff: when it returns within the months given, the loan is complete, its terms are unchanged, and its ledger was only extended, by at most that many payments |
| Loans.Payoff | financetools/loan.py:259-264 | pays monthly while the loan is unfinished and the next payment takes more than half a cent off; it always stops at a complete loan or at one whose next payment would not, and at a non-negative rate it stops complete; when the first payment would take at most half a cent off, the loan is unchanged; the terms are kept and the ledger is only extended |
| Loans.PayoffAsWritten | financetools/loan.py:259-264 | a loan that cannot be paid off by its own payment is returned unchanged |
| Loans.PayoffAsWrittenStalls | financetools/loan.py:259-268 | when the principal portion is positive but at most half a cent, can_payoff holds and the loop never ends, for any number of months |
| Loans.StalledLoanNeverPaysOff | financetools/loan.py:259-268 | Loan(101.20, 6.00, 0.51) passes can_payoff and never finishes |
| Loans.PayoffAgreesWithAsWritten | financetools/loan.py:259-268 | wherever the corrected guard holds, the loop as written ends within balance + 1 months with the same loan as the corrected payoff |
| Loans.Branch | financetools/loan.py:275-276 | a branch is a fresh, well-formed loan that starts from the current balance with the same rate, payment, title and term, so it owes the same interest |
| Loans.BranchIdempotent | financetools/loan.py:275-276 | branching a branch gives the same branch |
| Loans.Solve | financetools/loan.py:280-282 | solve pays off a branch whenever payoff can finish, and otherwise returns the untouched branch |
| Loans.RecursiveSolve | financetools/loan.py:306-338 | without a goal, a payment that does not exceed the interest due returns [balance, 0, 0] at once; a goal of 0 does too |
| Loans.SolveFrom | financetools/loan.py:308-325 | when the inner recursion returns within the steps given, it has made between n and n + steps payments and stopped at a zero balance or at the goal |
| Loans.SolveFromGoal | financetools/loan.py:308-325 | with a goal g the recursion ends after at most g payments, and before g only at a zero balance |
| Loans.SolveFromPaysOff | financetools/loan.py:308-325 | without a goal, a payment that beats the interest by d ends at a balance of exactly 0 within balance / d steps |
| Loans.RecursiveSolvePaysOff | financetools/loan.py:306-338 | recursive_solve() on a loan it can pay off reaches a zero balance within balance / margin payments |
| Loans.RecursiveSolveGoal | financetools/loan.py:306-338 | recursive_solve(g) makes exactly g payments unless it reaches a zero balance first |
| Loans.SolveFromPaidInFull | financetools/loan.py:308-325 | at a non-negative rate and a payment above the interest due, every payment but the last is the full payment and the last is what remains, so the starting balance plus the interest lies in ((k-1)·payment, k·payment] after k payments (Installments(k, p) is k·p, by InstallmentsProduct) |
| Loans.SolveForInterestBounded | financetools/loan.py:298-338 | at a non-negative rate and a payment above the interest due, with enough steps, solve_for_interest and solve_for_np both answer, and the current balance plus the interest reported is more than n - 1 payments and at most n payments, for the n payments reported |
| Loans.SolveForInterest | financetools/loan.py:298-301 | with a payment that cannot cover the interest, the interest reported is 0 |
| Loans.SolveForNp | financetools/loan.py:298-301 | with a payment that cannot cover the interest, the number of payments reported is 0 |
| Loans.IntPow | financetools/loan.py:140-147 | Decimal's integer power: 0 ** 0 is InvalidOperation and the only failure, 0 to a negative power is a positive infinity, and any other negative power is the reciprocal of the positive one |
| Loans.MinPayment | financetools/loan.py:140-147 | it fails only with Decimal's InvalidOperation or division by zero; a zero rate makes the discount factor 0/0, and a rate of -1200% with a negative term makes it Infinity / -Infinity, both InvalidOperation |
| Loans.MinPaymentAmortises | financetools/loan.py:140-147 | paying the minimum payment for term months retires the start balance exactly, when interest is charged on the unrounded balance |
| Loans.PrincipalPaid | financetools/loan.py:169-170 | the sum of the ledger's principal column; PrincipalHistory ends at it |
| Loans.InterestPaid | financetools/loan.py:166-167 | the sum of the ledger's interest column; InterestHistory ends at it |
| Loans.TotalPaid | financetools/loan.py:172-173 | interest paid plus principal paid; TotalPaymentHistory ends at it |
| Loans.PToI | financetools/loan.py:175-183 | nothing paid reads as 0; the ratio fails exactly when something was paid but no interest was |
| Loans.SharesAddUp | financetools/loan.py:175-183 | the principal and interest percentages add up to 100% to within one hundredth |
| Loans.PercentPrincipal | financetools/loan.py:185-186 | fails exactly when nothing was paid, with 0/0 as InvalidOperation; otherwise agrees with get_p_to_i('p') |
| Loans.PrincipalHistory | financetools/loan.py:196-197 | a running sum of the principal column, one entry per record, ending at the principal paid |
| Loans.InterestHistory | financetools/loan.py:198-199 | a running sum of the interest column, one entry per record, ending at the interest paid |
| Loans.TotalPaymentHistory | financetools/loan.py:200-203 | a running sum of principal plus interest, ending at the total paid |
| Loans.PercentPrincipalOverTime | financetools/loan.py:188-195 | one entry per payment, giving the share of the payment that went to principal (0 when none did); fails exactly when some payment has principal but a zero total |
| Loans.PercentPrincipalOverTimeBounded | financetools/loan.py:188-195 | with non-negative ledger amounts every share is defined and lies between 0 and 100 percent |
| LoanQueues.NewQueue | financetools/loan_queue.py:9-35 | the title defaults to "My Queue"; an explicit budget is quantized; otherwise the budget is the sum of the loans' payments |
| LoanQueues.Budget | financetools/loan_queue.py:31-32 | an explicit budget is used as set; without one the budget is the sum of the loans' payments |
| LoanQueues.LoansBeforeOtherConcat | financetools/loan_queue.py:87-94 | the loans appended from two argument lists are those of the first, followed by those of the second only if the first held no non-loan |
| LoanQueues.AddLoan | financetools/loan_queue.py:87-94 | every loan met before the first non-loan value (lists flattened in order) is appended; the call raises TypeError exactly when a non-loan value is met |
| LoanQueues.AddEach | financetools/loan_queue.py:88-90 | a list argument appends loans in the same way, element by element |
| LoanQueues.Branch | financetools/loan_queue.py:97-98 | the branch queue holds the branch of each loan in place, with the budget fixed at its current value |
| LoanQueues.Prioritize | financetools/loan_queue.py:101-117 | a permutation of the loans ordered by (rate, balance) ascending, by interest due ascending, or by balance or start balance descending; any other key changes nothing |
| LoanQueues.PrioritizeStable | financetools/loan_queue.py:101-117 | loans the key cannot tell apart keep their order |
| LoanQueues.PrioritizeIdempotent | financetools/loan_queue.py:101-117 | prioritizing twice by the same key is prioritizing once |
| LoanQueues.MinimumFor | financetools/loan_queue.py:123-129 | the minimum a loan gets, each rounded half away from zero to the cent: the interest due for 'int'; min_payment for 'min', failing exactly when min_payment does and only with its errors; the budget's even share for 'avg'; the current payment, unchanged, for any other selector |
| LoanQueues.AssignFrom | financetools/loan_queue.py:121-130 | only payments change, and each loan gets its minimum for the selector; only the annuity minimum can fail, and then with a Decimal error |
| LoanQueues.SetAllPayments | financetools/loan_queue.py:121-136 | the remainder is the budget less the new payments and is never negative; it raises ValueError exactly when the new payments add up to more than the budget (with the 'int' minimum: when the rounded interest due does not fit), and fails otherwise only on the annuity minimum's Decimal error |
| LoanQueues.InterestDueTotal | financetools/loan_queue.py:121-136 | the 'int' minimums add up to the total rounded interest due |
| LoanQueues.ExtrasSumToRemainder | financetools/loan_queue.py:146-159 | the unrounded extras of a spread add up to the remainder exactly |
| LoanQueues.ExtrasProportional | financetools/loan_queue.py:146-155 | each extra is the remainder's share in proportion to the loan's weight |
| LoanQueues.ExtrasNonNegative | financetools/loan_queue.py:146-155 | non-negative weights and remainder give non-negative extras |
| LoanQueues.Spread | financetools/loan_queue.py:146-159 | adds to each payment its proportional share of the remainder; weights that add up to 0 divide by zero, with InvalidOperation exactly when the first weight is 0; a key without weights fails on an unbound name |
| LoanQueues.SpreadSpendsRemainder | financetools/loan_queue.py:146-159 | a spread over some loans hands out the remainder to within half a cent per loan |
| LoanQueues.SpreadSpendsBudget | financetools/loan_queue.py:121-159 | minimums plus a spread spend the budget to within half a cent per loan |
| LoanQueues.Distribute | financetools/loan_queue.py:138-144 | a targeted distribution adds the whole remainder to the last loan and touches nothing else; an empty queue raises IndexError |
| LoanQueues.TargetSpendsRemainder | financetools/loan_queue.py:138-144 | a targeted distribution hands out exactly the remainder |
| LoanQueues.TargetSpendsBudget | financetools/loan_queue.py:121-144 | minimums plus a targeted distribution spend exactly the budget |
| LoanQueues.PayAll | financetools/loan_queue.py:246-247 | a payment round keeps the number of loans, the budget and the title |
| LoanQueues.PayEachAt | financetools/loan_queue.py:246-247 | every loan of the queue gets exactly one payment, in place |
| LoanQueues.Payoff | financetools/loan_queue.py:259-264 | every loan is paid off in place, and the flag says whether all of them finished; it is set whenever every loan can finish |
| LoanQueues.IsComplete | financetools/loan_queue.py:48-49 | every loan of the queue is paid off; LoanQueues.Payoff's flag is exactly this |
| LoanQueues.Duration | financetools/loan_queue.py:51-52 | the largest payment number in the queue; an empty queue raises ValueError |
| LoanQueues.NumPayments | financetools/loan_queue.py:54-55 | the sum of the loans' payment numbers; DurationAtMostPayments bounds the duration by it |
| LoanQueues.DurationAtMostPayments | financetools/loan_queue.py:51-55 | the duration never exceeds the total number of payments |
| LoanQueues.PrincipalPaid | financetools/loan_queue.py:57-58 | the sum of the loans' principal paid |
| LoanQueues.InterestPaid | financetools/loan_queue.py:60-61 | the sum of the loans' interest paid |
| LoanQueues.TotalPaid | financetools/loan_queue.py:63-64 | the sum of the loans' totals, which is the queue's principal paid plus its interest paid |
| LoanQueues.TotalPaidSplits | financetools/loan_queue.py:57-64 | the total paid is the principal paid plus the interest paid |
| LoanQueues.Ratios | financetools/loan_queue.py:66-67 | one ratio per loan, failing exactly when some loan's ratio does |
| LoanQueues.AvgPToI | financetools/loan_queue.py:66-67 | the mean of the loans' ratios rounded half away from zero, failing exactly when some ratio does; an empty queue divides by zero |
| LoanQueues.PercentPrincipal | financetools/loan_queue.py:69-70 | fails exactly when nothing was paid (over no loans an integer division by zero, over loans with no principal paid Decimal's 0/0); otherwise lies between 0 and 100% when principal is part of the total |
| Comparisons.OrderBy | financetools/loan_queue_compare.py:15-21 | a permutation of the grid ascending in the goal's metric; 'time' raises ValueError, before anything moves, exactly when some queue has no loans; an unknown goal changes nothing |
| Comparisons.SortedByGoal | tests/test_loan_queue_compare.py:29-48 | after ordering, each queue's interest, duration or payment count is at most the next one's |
| Comparisons.OrderByStable | financetools/loan_queue_compare.py:15-21 | queues that tie on the metric keep their order |
| Comparisons.OrderByIdempotent | financetools/loan_queue_compare.py:15-21 | ordering an ordered grid again by the same goal changes nothing |
| Comparisons.Top | financetools/loan_queue_compare.py:9-10 | the first queue; an empty grid raises IndexError |
| Comparisons.TopIsBest | financetools/loan_queue_compare.py:9-21 | after ordering, no queue in the grid beats the top one on the goal |
| Comparisons.AllComplete | financetools/loan_queue_compare.py:23-24 | every queue of the grid is complete; OrderByKeepsAllComplete and Strategies.SolvesAllComplete state its properties |
| Comparisons.OrderByKeepsAllComplete | financetools/loan_queue_compare.py:15-24 | reordering does not change whether all queues are complete |
| Strategies.PayRound | financetools/loan_queue.py:234-247 | one round of the inner loop, with the blizzard reordering; a successful round keeps the number of loans, and PayRoundKeeps states the rest |
| Strategies.PayOrdered | financetools/loan_queue.py:239-247 | the minimums, the distribution of the remainder and one payment per loan; a successful round keeps the number of loans |
| Strategies.PayRoundKeeps | financetools/loan_queue.py:236-247 | a round keeps the loans, the budget and the title, and every loan makes exactly one more payment |
| Strategies.RoundKeepsInv | financetools/loan_queue.py:232-247 | a round keeps the loop invariant: all loans being paid are at the round number, and the payments made equal the payment numbers recorded |
| Strategies.PopKeepsLoans | financetools/loan_queue.py:249-253 | moving the paid-off loans loses and duplicates none |
| Strategies.PopKeepsInv | financetools/loan_queue.py:249-253 | moving the paid-off loans keeps the loop invariant |
| Strategies.PopUnfolds | financetools/loan_queue.py:232-253 | each move takes at least one loan out of the queue being paid |
| Strategies.Drive | financetools/loan_queue.py:232-253 | the completed queue it returns keeps the budget and title it was given, and the round and payment counts only grow; DriveReports states what it holds |
| Strategies.DriveReports | financetools/loan_queue.py:232-253 | whatever the loops return holds every loan of both queues under the same budget and title, and from an invariant state is paid off with matching duration and payment count |
| Strategies.DebtSolve | financetools/loan_queue.py:218-256 | every strategy returns a paid-off queue of the branches of all the loans, under the same budget and title, ordered by descending start balance; its payment count is the number of pay_month calls and its duration the number of rounds |
| Strategies.StartQueue | financetools/loan_queue.py:224-229 | the branches of all the loans, ordered once for avalanche and snowball: a permutation of the branch queue with the budget fixed at the original's and the same title |
| Strategies.DoneQueue | financetools/loan_queue.py:225 | the empty completed queue, with the original's budget and title |
| Strategies.StartFacts | financetools/loan_queue.py:224-229 | the loops start from the branches, the empty completed queue and the budget fixed |
| Strategies.ReorderKeeps | financetools/loan_queue.py:256 | the final reordering keeps completeness, the loans, the payment count and the duration |
| Strategies.InterestOnlyPayment | financetools/loan.py:227-248 | a loan paid exactly its rounded interest keeps its balance |
| Strategies.OnlyTargetMoves | financetools/loan_queue.py:236-247 | with the 'int' minimum, a targeted round leaves every balance except the target's exactly as it was, and lowers the target's |
| Strategies.TargetedRound | financetools/loan_queue.py:236-247 | on unfinished loans at non-negative rates and a budget above the rounded interest due, such a round succeeds, keeps every balance non-negative, lowers the total owed and does not raise the total rounded interest due |
| Strategies.InterestAllocation | financetools/loan_queue.py:121-136 | with the 'int' minimum and a budget above the interest due, each minimum is the rounded interest and at least a cent is left over |
| Strategies.DriveFinishes | financetools/loan_queue.py:232-253 | with a round that always makes progress, the loops finish within as many rounds as there are cents owed |
| Strategies.TargetedStrategyFinishes | financetools/loan_queue.py:218-256 | avalanche, blizzard and snowball with the 'int' minimum always finish when the budget exceeds the rounded interest due and no rate or balance is negative |
| Strategies.InfeasibleBudgetFails | financetools/loan_queue.py:218-240 | when no loan is paid off yet and their rounded interest due exceeds the budget, every strategy with the 'int' minimum raises ValueError in its first round |
| Strategies.InfeasibleRoundFails | financetools/loan_queue.py:236-240 | a round whose interest due exceeds the fixed budget raises ValueError |
| Strategies.SolveEach | financetools/loan_queue.py:206-213 | every queue the strategies return satisfies debt_solve's promise |
| Strategies.SolveEachFails | financetools/loan_queue.py:206-213 | the list fails if and only if one of the strategies does |
| Strategies.SolveEachRuns | financetools/loan_queue.py:206-213 | each entry is what its strategy returns |
| Strategies.Finish | financetools/loan_queue.py:206-215 | five queues, each complete and holding the branches of all the loans, ranked by the goal |
| Strategies.FinishEmpty | financetools/loan_queue.py:206-215 | with no loans, finish fails exactly for the 'time' goal |
| Strategies.SolvesAllComplete | financetools/loan_queue_compare.py:23-24 | a grid of solved queues is all complete |
| Strategies.EmptyQueueSolves | financetools/loan_queue.py:232 | with no loans every strategy returns at once, after no rounds |

## Left out

- **Display and serialisation**: `to_json`, `get_analysis`, `get_payment_info`, `__str__`, `display_info`, `expanded_info`, `history_info`, `line`, and the `print` calls in `payoff` and `recursive_solve`. They produce output only.
- **Counters and titles**: the instance counters and the automatic "Untitled(n)" titles. Titles are taken as given, because the counters are global mutable state.
- **Float inputs**: the constructors take exact reals. Python's conversion of a float through `str` is not modelled.
- **Decimal precision**: all arithmetic is exact. Python's Decimal context rounds every intermediate to 28 significant digits, for example the monthly rate, `(1 + r) ** n`, and the extras of a spread.
- **Aliasing**:
  - List aliasing is not modelled. In particular, the `loans` list passed to `LoanQueue` is shared with the caller.
  - `list.remove`'s identity-based removal is replaced by filtering, which gives the same result because every loan in the queue is a distinct object.
- **Recursion limit**: Python's limit on recursion depth is not modelled. The fuel of `Loans.RecursiveSolve` and the driver stands for it and for loops that do not end.
- **Strategy wrappers**: `avalanche`, `blizzard`, `snowball`, `cascade` and `ice_slide` are `Strategies.DebtSolve` with the matching `Key`.
- Loans.PToI: a selector other than None, 'p' or 'i' returns None in Python. The model has no such selector.
- LoanQueues.SetAllPayments: on a ValueError the Python queue keeps the payments already assigned. The model returns only the failure.
- LoanQueues.AssignFrom: with the 'avg' minimum and no explicit budget, the budget is re-read after every assignment. The contract does not state each payment in that case.
- Strategies.TargetedStrategyFinishes: covers only the targeted strategies with the 'int' minimum. Cascade and ice_slide round every share separately, so a spread can leave a loan paying its interest to within half a cent, and no such bound is proved for them. The annuity and 'avg' minimums do not track the interest due.
- Loans.Payoff: uses the corrected guard described under Findings. LoanQueues.Payoff and Loans.Solve build on it.
- Loans.MinPaymentAmortises: holds for the unrounded schedule. The ledger's cent rounding can leave a few cents after `term` payments.
- The duplicate `loan_queue_compare.py` at the repository root, `example.py` and the test fixtures are not part of this model. `Comparisons.SortedByGoal` states the ordering the comparison tests check.

## Findings

| source | as written | input that shows it | evidently intended | confidence | as-written member | corrected member |
|---|---|---|---|---|---|---|
| financetools/loan.py:259-268 | `payoff` loops `while not is_complete()` whenever `can_payoff()` holds, that is, whenever the payment exceeds the interest due | `Loan(101.20, 6.00, 0.51)`: the interest due is 0.506, the principal portion is 0.004, and the balance forward 101.196 is quantized back to 101.20 every month, so the loop never ends | the guard should promise that the loop ends: each payment must take more than half a cent off the balance | not executed | Loans.PayoffAsWritten, Loans.StalledLoanNeverPaysOff | Loans.Payoff, Loans.PayoffAgreesWithAsWritten |

=== FILE: debt_solve.dfy ===
/** debt_solve and the strategies built on it. A branched copy of the queue
    is paid down round by round; whenever a round leaves some loans paid
    off they are moved, in queue order, to a completed queue, which is
    finally ordered by descending start balance. finish runs the five
    strategies and ranks them. */
module Strategies {
  import opened Outcomes
  import opened Money
  import Seqs
  import Loans
  import opened LoanQueues
  import Comparisons

  /** avalanche and snowball order the queue once, blizzard before every
      round; cascade and ice_slide never do. */
  predicate OrderOnce(key: Key) {
    key == Avalanche || key == Snowball
  }

  predicate OrderEvery(key: Key) {
    key == Blizzard
  }

  /** What identifies a loan through a solve: payments and the ledger
      change, these do not. */
  function Id(l: Loans.Loan): (string, int, int, int) {
    (l.title, l.rate, l.term, l.startBalance)
  }

  function Ids(loans: seq<Loans.Loan>): seq<(string, int, int, int)> {
    Seqs.MapSeq(loans, Id)
  }

  /** Every loan has made exactly k payments. */
  predicate AllAt(loans: seq<Loans.Loan>, k: int) {
    forall l :: l in loans ==> Loans.PayNo(l) == k
  }

  predicate Unfinished(l: Loans.Loan) {
    !Loans.IsComplete(l)
  }

  /** all(not l.is_complete() for l in loans) */
  predicate NoneComplete(loans: seq<Loans.Loan>) {
    forall l :: l in loans ==> Unfinished(l)
  }

  // ---------------------------------------------------------------------
  // One round of the inner loop
  // ---------------------------------------------------------------------

  /** The body of the inner while loop: reorder for blizzard, set the
      minimums, distribute the remainder, pay every loan once. */
  function PayRound(temp: Queue, key: Key, m: Minimum): (r: Result<Queue>)
    ensures r.Success? ==> |r.value.loans| == |temp.loans|
  {
    PayOrdered(if OrderEvery(key) then Prioritize(temp, key) else temp, key, m)
  }

  /** The round once the queue is in order. */
  function PayOrdered(ordered: Queue, key: Key, m: Minimum): (r: Result<Queue>)
    ensures r.Success? ==> |r.value.loans| == |ordered.loans|
  {
    var alloc :- SetAllPayments(ordered, m);
    var paid :- Distribute(alloc.queue, key, alloc.remainder);
    Success(PayAll(paid))
  }

  /** A round keeps the loans, the budget and the title, and adds one
      payment to every loan. */
  lemma PayRoundKeeps(temp: Queue, key: Key, m: Minimum)
    requires PayRound(temp, key, m).Success?
    ensures var next := PayRound(temp, key, m).value;
      && next.explicitBudget == temp.explicitBudget && next.title == temp.title
      && multiset(Ids(next.loans)) == multiset(Ids(temp.loans))
      && forall k :: AllAt(temp.loans, k) ==> AllAt(next.loans, k + 1)
  {
    var ordered := if OrderEvery(key) then Prioritize(temp, key) else temp;
    var alloc := SetAllPayments(ordered, m).value;
    var paid := Distribute(alloc.queue, key, alloc.remainder).value;
    RoundKeepsLoans(temp, ordered, alloc.queue, paid);
  }

  /** The round a strategy runs, as the driver sees it. */
  function RoundOf(key: Key, m: Minimum): Queue -> Result<Queue> {
    t => PayRound(t, key, m)
  }

  /** A round function that keeps the loans, the budget and the title, and
      adds one payment to every loan. */
  ghost predicate KeepsLoans(round: Queue -> Result<Queue>) {
    forall t :: KeepsLoansFrom(round, t)
  }

  /** A successful round from t keeps t's loans, budget and title, and
      takes every loan one payment further. */
  ghost predicate KeepsLoansFrom(round: Queue -> Result<Queue>, t: Queue) {
    round(t).Success? ==>
      && |round(t).value.loans| == |t.loans|
      && round(t).value.explicitBudget == t.explicitBudget && round(t).value.title == t.title
      && multiset(Ids(round(t).value.loans)) == multiset(Ids(t.loans))
      && forall k :: AllAt(t.loans, k) ==> AllAt(round(t).value.loans, k + 1)
  }

  /** Every strategy's round keeps the loans. */
  lemma RoundsKeepLoans(key: Key, m: Minimum)
    ensures KeepsLoans(RoundOf(key, m))
  {
    forall t
      ensures KeepsLoansFrom(RoundOf(key, m), t)
    {
      if RoundOf(key, m)(t).Success? {
        PayRoundKeeps(t, key, m);
      }
    }
  }

  lemma RoundKeepsLoans(temp: Queue, ordered: Queue, given: Queue, paid: Queue)
    requires multiset(ordered.loans) == multiset(temp.loans)
    requires ordered.explicitBudget == temp.explicitBudget && ordered.title == temp.title
    requires SamePositions(ordered, given) && SamePositions(given, paid)
    ensures var next := PayAll(paid);
      && |next.loans| == |temp.loans|
      && next.explicitBudget == temp.explicitBudget && next.title == temp.title
      && multiset(Ids(next.loans)) == multiset(Ids(temp.loans))
      && forall k :: AllAt(temp.loans, k) ==> AllAt(next.loans, k + 1)
  {
    var next := PayAll(paid);
    assert |multiset(ordered.loans)| == |multiset(temp.loans)|;
    PaidIds(ordered, given, paid);
    Seqs.MapPermutation(ordered.loans, temp.loans, Id);
    forall k | AllAt(temp.loans, k)
      ensures AllAt(next.loans, k + 1)
    {
      assert forall l :: l in ordered.loans ==> l in multiset(temp.loans);
      PaidPayNos(ordered, given, paid, k);
    }
  }

  lemma PaidIds(ordered: Queue, given: Queue, paid: Queue)
    requires SamePositions(ordered, given) && SamePositions(given, paid)
    ensures Ids(PayAll(paid).loans) == Ids(ordered.loans)
  {
    PayEachAt(paid.loans);
  }

  lemma PaidPayNos(ordered: Queue, given: Queue, paid: Queue, k: int)
    requires SamePositions(ordered, given) && SamePositions(given, paid)
    requires AllAt(ordered.loans, k)
    ensures AllAt(PayAll(paid).loans, k + 1)
  {
    var next := PayAll(paid);
    PayEachAt(paid.loans);
    forall l | l in next.loans
      ensures Loans.PayNo(l) == k + 1
    {
      var i :| 0 <= i < |next.loans| && next.loans[i] == l;
      assert ordered.loans[i] in ordered.loans;
      assert paid.loans[i].history == ordered.loans[i].history;
    }
  }

  // ---------------------------------------------------------------------
  // The driver
  // ---------------------------------------------------------------------

  /** A finished solve: the completed queue, the number of rounds the
      driver ran and the number of pay_month calls it made. */
  datatype Solved = Solved(queue: Queue, rounds: nat, payments: nat)

  /** What the two nested loops of debt_solve keep: the loans still being
      paid have all made one payment per round, the completed ones are
      paid off and made no more, and the payments made so far are exactly
      the payment numbers recorded. */
  predicate Inv(temp: Queue, done: Queue, rounds: nat, payments: nat) {
    && AllAt(temp.loans, rounds)
    && (forall l :: l in done.loans ==> Loans.IsComplete(l) && 0 <= Loans.PayNo(l) <= rounds)
    && (|temp.loans| == 0 && |done.loans| > 0 ==> exists l :: l in done.loans && Loans.PayNo(l) == rounds)
    && Seqs.SumOf(done.loans, Loans.PayNo) + |temp.loans| * rounds == payments
  }

  lemma RoundKeepsInv(temp: Queue, next: Queue, done: Queue, rounds: nat, payments: nat)
    requires |temp.loans| > 0 && |next.loans| == |temp.loans|
    requires forall k :: AllAt(temp.loans, k) ==> AllAt(next.loans, k + 1)
    ensures Inv(temp, done, rounds, payments) ==> Inv(next, done, rounds + 1, payments + |temp.loans|)
  {
    assert |next.loans| * (rounds + 1) == |temp.loans| * rounds + |temp.loans|;
  }

  /** Moving the paid-off loans loses none and adds none. */
  lemma PopKeepsLoans(temp: Queue, done: Queue)
    ensures var finished := Seqs.Filter(temp.loans, Loans.IsComplete);
      var rest := Seqs.Filter(temp.loans, Unfinished);
      && |finished| + |rest| == |temp.loans|
      && multiset(Ids(done.loans + finished)) + multiset(Ids(rest))
         == multiset(Ids(done.loans)) + multiset(Ids(temp.loans))
  {
    var finished := Seqs.Filter(temp.loans, Loans.IsComplete);
    var rest := Seqs.Filter(temp.loans, Unfinished);
    Seqs.FilterPartition(temp.loans, Loans.IsComplete, Unfinished);
    assert |multiset(finished + rest)| == |multiset(temp.loans)|;
    Seqs.MapPermutation(finished + rest, temp.loans, Id);
    Seqs.MapSeqConcat(finished, rest, Id);
    Seqs.MapSeqConcat(done.loans, finished, Id);
  }

  /** ... and keeps the invariant. */
  lemma PopKeepsInv(temp: Queue, done: Queue, rounds: nat, payments: nat)
    requires |temp.loans| > 0
    ensures Inv(temp, done, rounds, payments) ==>
      Inv(temp.(loans := Seqs.Filter(temp.loans, Unfinished)),
          done.(loans := done.loans + Seqs.Filter(temp.loans, Loans.IsComplete)), rounds, payments)
  {
    var finished := Seqs.Filter(temp.loans, Loans.IsComplete);
    var rest := Seqs.Filter(temp.loans, Unfinished);
    var done' := done.(loans := done.loans + finished);
    var temp' := temp.(loans := rest);
    if Inv(temp, done, rounds, payments) {
      PopKeepsLoans(temp, done);
      assert AllAt(finished, rounds);
      assert AllAt(rest, rounds);
      assert forall l :: l in done'.loans ==> Loans.IsComplete(l) && 0 <= Loans.PayNo(l) <= rounds by {
        assert forall l :: l in done.loans + finished ==> l in done.loans || l in finished;
      }
      assert |rest| == 0 ==> exists l :: l in done'.loans && Loans.PayNo(l) == rounds by {
        if |rest| == 0 {
          assert finished[0] in done.loans + finished;
        }
      }
      PopSum(done.loans, finished, |rest|, rounds, payments, |temp.loans|);
    }
  }

  lemma PopSum(done: seq<Loans.Loan>, finished: seq<Loans.Loan>, rest: nat, rounds: nat, payments: nat, n: nat)
    requires AllAt(finished, rounds) && |finished| + rest == n
    requires Seqs.SumOf(done, Loans.PayNo) + n * rounds == payments
    ensures Seqs.SumOf(done + finished, Loans.PayNo) + rest * rounds == payments
  {
    SumOfAllAt(finished, rounds);
    Seqs.SumOfConcat(done, finished, Loans.PayNo);
    Distributes(|finished|, rest, rounds);
  }

  lemma Distributes(a: int, b: int, c: int)
    ensures (a + b) * c == a * c + b * c
  {
  }

  lemma {:induction false} SumOfAllAt(xs: seq<Loans.Loan>, k: int)
    requires AllAt(xs, k)
    ensures Seqs.SumOf(xs, Loans.PayNo) == |xs| * k
  {
    if |xs| > 0 {
      assert AllAt(xs[1..], k) by {
        forall l | l in xs[1..]
          ensures Loans.PayNo(l) == k
        {
          assert l in xs;
        }
      }
      SumOfAllAt(xs[1..], k);
      assert xs[0] in xs;
      assert Seqs.SumOf(xs, Loans.PayNo) == k + (|xs| - 1) * k;
      Distributes(1, |xs| - 1, k);
    }
  }

  /** What the driver promises from a state: the completed queue keeps
      the budget and title, holds every loan of both queues, and, from a
      state where the invariant holds, is paid off and agrees with the
      round and payment counts. */
  predicate Reports(temp: Queue, done: Queue, rounds: nat, payments: nat, s: Solved) {
    && s.queue.explicitBudget == done.explicitBudget && s.queue.title == done.title
    && |s.queue.loans| == |done.loans| + |temp.loans|
    && multiset(Ids(s.queue.loans)) == multiset(Ids(done.loans)) + multiset(Ids(temp.loans))
    && (Inv(temp, done, rounds, payments) ==>
          && IsComplete(s.queue)
          && NumPayments(s.queue) == s.payments
          && (|s.queue.loans| > 0 ==> Duration(s.queue) == Success(s.rounds)))
  }

  /** The two nested while loops of debt_solve, for a given round (the
      body of the inner loop). When every loan still being paid is
      unfinished a round is run; otherwise the paid-off loans are moved to
      the completed queue. The loops need not end, so each round costs one
      unit of fuel. */
  function Drive(temp: Queue, done: Queue, round: Queue -> Result<Queue>, rounds: nat, payments: nat, fuel: nat): (r: Result<Solved>)
    decreases fuel, |temp.loans|
    ensures r.Success? ==> r.value.queue.explicitBudget == done.explicitBudget && r.value.queue.title == done.title
    ensures r.Success? ==> r.value.rounds >= rounds && r.value.payments >= payments
  {
    if |temp.loans| == 0 then Success(Solved(done, rounds, payments))
    else if NoneComplete(temp.loans) then
      if fuel == 0 then Failure(OutOfFuel)
      else
        var next :- round(temp);
        Drive(next, done, round, rounds + 1, payments + |temp.loans|, fuel - 1)
    else
      var finished := Seqs.Filter(temp.loans, Loans.IsComplete);
      var rest := Seqs.Filter(temp.loans, Unfinished);
      assert exists i :: 0 <= i < |temp.loans| && !Unfinished(temp.loans[i]);
      Drive(temp.(loans := rest), done.(loans := done.loans + finished), round, rounds, payments, fuel)
  }

  /** Whatever state the driver starts from, what it returns reports on
      it, provided the round keeps the loans: induction over the rounds and
      the moves. */
  lemma {:induction false} DriveReports(temp: Queue, done: Queue, round: Queue -> Result<Queue>, rounds: nat, payments: nat, fuel: nat)
    requires KeepsLoans(round)
    decreases fuel, |temp.loans|
    ensures Drive(temp, done, round, rounds, payments, fuel).Success? ==>
      Reports(temp, done, rounds, payments, Drive(temp, done, round, rounds, payments, fuel).value)
  {
    if |temp.loans| == 0 {
      DoneFacts(temp, done, rounds, payments);
    } else if NoneComplete(temp.loans) {
      if fuel > 0 && round(temp).Success? {
        assert KeepsLoansFrom(round, temp);
        var next := round(temp).value;
        RoundUnfolds(temp, done, round, rounds, payments, fuel, next);
        DriveReports(next, done, round, rounds + 1, payments + |temp.loans|, fuel - 1);
        var r := Drive(next, done, round, rounds + 1, payments + |temp.loans|, fuel - 1);
        RoundReports(round, temp, next, done, rounds, payments, r);
      }
    } else {
      var finished := Seqs.Filter(temp.loans, Loans.IsComplete);
      var rest := Seqs.Filter(temp.loans, Unfinished);
      PopUnfolds(temp, done, round, rounds, payments, fuel);
      DriveReports(temp.(loans := rest), done.(loans := done.loans + finished), round, rounds, payments, fuel);
      var r := Drive(temp.(loans := rest), done.(loans := done.loans + finished), round, rounds, payments, fuel);
      PopReports(temp, done, rounds, payments, r);
    }
  }

  /** A round the driver runs: it costs one unit of fuel and the driver
      goes on from the paid queue. */
  lemma RoundUnfolds(temp: Queue, done: Queue, round: Queue -> Result<Queue>, rounds: nat, payments: nat, fuel: nat, next: Queue)
    requires |temp.loans| > 0 && NoneComplete(temp.loans) && fuel > 0 && round(temp) == Success(next)
    ensures Drive(temp, done, round, rounds, payments, fuel)
         == Drive(next, done, round, rounds + 1, payments + |temp.loans|, fuel - 1)
  {
  }

  /** Each move takes at least one paid-off loan out of the queue being
      paid, and the driver goes on from what is left. */
  lemma PopUnfolds(temp: Queue, done: Queue, round: Queue -> Result<Queue>, rounds: nat, payments: nat, fuel: nat)
    requires |temp.loans| > 0 && !NoneComplete(temp.loans)
    ensures |Seqs.Filter(temp.loans, Loans.IsComplete)| > 0
    ensures |Seqs.Filter(temp.loans, Unfinished)| < |temp.loans|
    ensures Drive(temp, done, round, rounds, payments, fuel)
         == Drive(temp.(loans := Seqs.Filter(temp.loans, Unfinished)),
                  done.(loans := done.loans + Seqs.Filter(temp.loans, Loans.IsComplete)), round, rounds, payments, fuel)
  {
    var i :| 0 <= i < |temp.loans| && !Unfinished(temp.loans[i]);
    assert temp.loans[i] in Seqs.Filter(temp.loans, Loans.IsComplete);
  }

  lemma PopReports(temp: Queue, done: Queue, rounds: nat, payments: nat, r: Result<Solved>)
    requires |temp.loans| > 0
    requires r.Success? ==> Reports(temp.(loans := Seqs.Filter(temp.loans, Unfinished)),
      done.(loans := done.loans + Seqs.Filter(temp.loans, Loans.IsComplete)), rounds, payments, r.value)
    ensures r.Success? ==> Reports(temp, done, rounds, payments, r.value)
  {
    PopKeepsLoans(temp, done);
    PopKeepsInv(temp, done, rounds, payments);
  }

  lemma RoundReports(round: Queue -> Result<Queue>, temp: Queue, next: Queue, done: Queue, rounds: nat, payments: nat, r: Result<Solved>)
    requires |temp.loans| > 0 && KeepsLoansFrom(round, temp) && round(temp) == Success(next)
    requires r.Success? ==> Reports(next, done, rounds + 1, payments + |temp.loans|, r.value)
    ensures r.Success? ==> Reports(temp, done, rounds, payments, r.value)
  {
    RoundKeepsInv(temp, next, done, rounds, payments);
  }

  lemma DoneFacts(temp: Queue, done: Queue, rounds: nat, payments: nat)
    requires |temp.loans| == 0
    ensures Reports(temp, done, rounds, payments, Solved(done, rounds, payments))
  {
    if Inv(temp, done, rounds, payments) && |done.loans| > 0 {
      var m := MaxPayNo(done.loans);
      var l :| l in done.loans && Loans.PayNo(l) == rounds;
      var l' :| l' in done.loans && Loans.PayNo(l') == m;
      assert rounds <= m && m <= rounds;
    }
  }

  /** What debt_solve promises: the completed queue holds the branches of
      all the loans, every one paid off, keeps the budget and title, and is
      ordered by descending start balance; its payment numbers add up to
      the pay_month calls made, and the longest-running loan took every
      round. */
  predicate SolvedFrom(q: Queue, s: Solved) {
    && IsComplete(s.queue)
    && |s.queue.loans| == |q.loans|
    && multiset(Ids(s.queue.loans)) == multiset(Ids(Branch(q).loans))
    && Budget(s.queue) == Budget(q) && s.queue.title == q.title
    && (forall i, j :: 0 <= i < j < |s.queue.loans| ==>
          s.queue.loans[i].startBalance >= s.queue.loans[j].startBalance)
    && NumPayments(s.queue) == s.payments
    && (|q.loans| > 0 ==> Duration(s.queue) == Success(s.rounds))
  }

  /** The queue debt_solve starts from: the branches, ordered once for
      avalanche and snowball. */
  function StartQueue(q: Queue, key: Key): (r: Queue)
    ensures multiset(r.loans) == multiset(Branch(q).loans) && |r.loans| == |q.loans|
    ensures r.explicitBudget == Some(Budget(q)) && r.title == q.title
  {
    var branched := Branch(q);
    var r := if OrderOnce(key) then Prioritize(branched, key) else branched;
    assert |multiset(r.loans)| == |multiset(branched.loans)|;
    r
  }

  /** The empty completed queue, with the budget fixed. */
  function DoneQueue(q: Queue): (r: Queue)
    ensures r.loans == [] && r.explicitBudget == Some(Budget(q)) && Budget(r) == Budget(q)
    ensures r.title == q.title
  {
    DecOfHundredths(Budget(q));
    NewQueue([], Some(Budget(q) as real / 100.0), Some(q.title))
  }

  /** debt_solve(key, minimum), with the driver's round and payment counts.
      Every strategy, whatever its minimum, returns what debt_solve
      promises. */
  function DebtSolve(q: Queue, key: Key, m: Minimum, fuel: nat): (r: Result<Solved>)
    ensures r.Success? ==> SolvedFrom(q, r.value)
  {
    var s :- Drive(StartQueue(q, key), DoneQueue(q), RoundOf(key, m), 0, 0, fuel);
    var ordered := Prioritize(s.queue, ByStartBalance);
    RoundsKeepLoans(key, m);
    DriveReports(StartQueue(q, key), DoneQueue(q), RoundOf(key, m), 0, 0, fuel);
    SolveFacts(q, key, s, ordered);
    Success(s.(queue := ordered))
  }

  lemma SolveFacts(q: Queue, key: Key, s: Solved, ordered: Queue)
    requires Reports(StartQueue(q, key), DoneQueue(q), 0, 0, s)
    requires ordered == Prioritize(s.queue, ByStartBalance)
    ensures SolvedFrom(q, s.(queue := ordered))
  {
    StartFacts(q, key);
    ReorderKeeps(s.queue, ordered);
    if |q.loans| > 0 {
      assert Duration(ordered) == Success(MaxPayNo(ordered.loans));
    }
  }

  /** The state the driver starts from: nothing completed, the invariant
      holds, and the budget is the queue's. */
  lemma StartFacts(q: Queue, key: Key)
    ensures var temp, done := StartQueue(q, key), DoneQueue(q);
      && Inv(temp, done, 0, 0)
      && done.loans == [] && |temp.loans| == |q.loans|
      && multiset(Ids(temp.loans)) == multiset(Ids(Branch(q).loans))
      && done.explicitBudget == Some(Budget(q)) && done.title == q.title
  {
    DecOfHundredths(Budget(q));
    StartInv(Branch(q), StartQueue(q, key), DoneQueue(q));
  }

  lemma StartInv(branched: Queue, temp: Queue, done: Queue)
    requires forall l :: l in branched.loans ==> Loans.PayNo(l) == 0
    requires multiset(temp.loans) == multiset(branched.loans)
    requires done.loans == []
    ensures Inv(temp, done, 0, 0)
    ensures multiset(Ids(temp.loans)) == multiset(Ids(branched.loans))
  {
    assert forall l :: l in temp.loans ==> l in multiset(branched.loans);
    Seqs.MapPermutation(temp.loans, branched.loans, Id);
  }

  /** Reordering a queue keeps everything the solve reports. */
  lemma ReorderKeeps(a: Queue, b: Queue)
    requires multiset(b.loans) == multiset(a.loans)
    ensures IsComplete(b) <==> IsComplete(a)
    ensures multiset(Ids(b.loans)) == multiset(Ids(a.loans))
    ensures NumPayments(b) == NumPayments(a)
    ensures MaxPayNo(b.loans) == MaxPayNo(a.loans)
  {
    assert forall l :: l in b.loans <==> l in multiset(a.loans);
    Seqs.MapPermutation(b.loans, a.loans, Id);
    Seqs.SumOfPermutation(b.loans, a.loans, Loans.PayNo);
    assert |b.loans| == |multiset(a.loans)| == |a.loans|;
    if |a.loans| > 0 {
      var x :| x in a.loans && Loans.PayNo(x) == MaxPayNo(a.loans);
      var y :| y in b.loans && Loans.PayNo(y) == MaxPayNo(b.loans);
      assert x in b.loans && y in a.loans;
    }
  }

  // ---------------------------------------------------------------------
  // When a targeted strategy finishes
  // ---------------------------------------------------------------------

  /** A loan paid exactly its rounded interest keeps its balance: the
      principal portion is under half a cent either way, or exactly half a
      cent, and the balance forward rounds back to where it was. */
  lemma InterestOnlyPayment(x: Loans.Loan)
    requires x.rate >= 0 && Loans.CurrentBal(x) >= 1 && x.payment == Loans.RoundedIntDue(x)
    ensures Loans.CurrentBal(Loans.PayMonth(x)) == Loans.CurrentBal(x)
  {
    Loans.IntDueNonNegative(x);
    var bal := Loans.CurrentBal(x);
    var d := Loans.Margin(x);
    assert -0.5 < d <= 0.5;
    var after := Loans.CurrentBal(Loans.PayMonth(x));
    assert after == Round(bal as real - d);
    RoundUnique(bal as real - d, bal);
  }

  /** The target, paid at least a cent more than its rounded interest,
      comes down. */
  lemma TargetPayment(x: Loans.Loan)
    requires x.rate >= 0 && Loans.CurrentBal(x) >= 1 && x.payment >= Loans.RoundedIntDue(x) + 1
    ensures 0 <= Loans.CurrentBal(Loans.PayMonth(x)) < Loans.CurrentBal(x)
  {
    Loans.PaymentLowersBalanceIff(x);
  }

  lemma PositionStep(o: Loans.Loan, x: Loans.Loan, target: bool)
    requires o.rate >= 0 && Loans.CurrentBal(o) >= 1 && x == o.(payment := x.payment)
    requires target ==> x.payment >= Loans.RoundedIntDue(o) + 1
    requires !target ==> x.payment == Loans.RoundedIntDue(o)
    ensures var y := Loans.PayMonth(x);
      && y.rate >= 0 && 0 <= Loans.CurrentBal(y) <= Loans.CurrentBal(o)
      && (target ==> Loans.CurrentBal(y) < Loans.CurrentBal(o))
      && (!target ==> Loans.CurrentBal(y) == Loans.CurrentBal(o))
      && Loans.RoundedIntDue(y) <= Loans.RoundedIntDue(o)
  {
    assert Loans.CurrentBal(x) == Loans.CurrentBal(o);
    assert Loans.IntDue(x) == Loans.IntDue(o);
    if target {
      TargetPayment(x);
    } else {
      InterestOnlyPayment(x);
    }
    LowerBalanceLowerInterest(Loans.PayMonth(x), o);
  }

  lemma LowerBalanceLowerInterest(y: Loans.Loan, o: Loans.Loan)
    requires y.rate == o.rate && o.rate >= 0 && Loans.CurrentBal(y) <= Loans.CurrentBal(o)
    ensures Loans.RoundedIntDue(y) <= Loans.RoundedIntDue(o)
  {
    Loans.IntDueMonotone(y, o);
    RoundMonotone(Loans.IntDue(y), Loans.IntDue(o));
  }

  /** A round where no balance rises, the last one falls and no interest
      due rises lowers what is owed and does not raise the interest due. */
  lemma PositionSums(ordered: seq<Loans.Loan>, next: seq<Loans.Loan>)
    requires |ordered| > 0 && |next| == |ordered|
    requires forall i :: 0 <= i < |ordered| ==>
      next[i].rate >= 0 && 0 <= Loans.CurrentBal(next[i]) <= Loans.CurrentBal(ordered[i])
    requires Loans.CurrentBal(next[|ordered| - 1]) < Loans.CurrentBal(ordered[|ordered| - 1])
    requires forall i :: 0 <= i < |ordered| ==> Loans.RoundedIntDue(next[i]) <= Loans.RoundedIntDue(ordered[i])
    ensures forall l :: l in next ==> l.rate >= 0 && Loans.CurrentBal(l) >= 0
    ensures Seqs.SumOf(next, Loans.CurrentBal) < Seqs.SumOf(ordered, Loans.CurrentBal)
    ensures Seqs.SumOf(next, Loans.RoundedIntDue) <= Seqs.SumOf(ordered, Loans.RoundedIntDue)
  {
    Seqs.SumOfLt(next, ordered, Loans.CurrentBal, Loans.CurrentBal, |ordered| - 1);
    Seqs.SumOfLe(next, ordered, Loans.RoundedIntDue, Loans.RoundedIntDue);
  }

  /** Position by position, a round that pays every loan its rounded
      interest and the last one at least a cent more: no balance rises, the
      last one falls, and no interest due rises. */
  lemma AllPositions(ordered: seq<Loans.Loan>, paid: seq<Loans.Loan>, next: seq<Loans.Loan>)
    requires |ordered| > 0 && |paid| == |ordered| && |next| == |ordered|
    requires forall i :: 0 <= i < |next| ==> next[i] == Loans.PayMonth(paid[i])
    requires forall l :: l in ordered ==> l.rate >= 0 && Loans.CurrentBal(l) >= 1
    requires forall i :: 0 <= i < |ordered| ==> paid[i] == ordered[i].(payment := paid[i].payment)
    requires forall i :: 0 <= i < |ordered| - 1 ==> paid[i].payment == Loans.RoundedIntDue(ordered[i])
    requires paid[|ordered| - 1].payment >= Loans.RoundedIntDue(ordered[|ordered| - 1]) + 1
    ensures forall i :: 0 <= i < |ordered| ==>
      next[i].rate >= 0 && 0 <= Loans.CurrentBal(next[i]) <= Loans.CurrentBal(ordered[i])
    ensures Loans.CurrentBal(next[|ordered| - 1]) < Loans.CurrentBal(ordered[|ordered| - 1])
    ensures forall i :: 0 <= i < |ordered| - 1 ==> Loans.CurrentBal(next[i]) == Loans.CurrentBal(ordered[i])
    ensures forall i :: 0 <= i < |ordered| ==> Loans.RoundedIntDue(next[i]) <= Loans.RoundedIntDue(ordered[i])
  {
    forall i | 0 <= i < |ordered|
      ensures next[i].rate >= 0 && 0 <= Loans.CurrentBal(next[i]) <= Loans.CurrentBal(ordered[i])
      ensures i == |ordered| - 1 ==> Loans.CurrentBal(next[i]) < Loans.CurrentBal(ordered[i])
      ensures i < |ordered| - 1 ==> Loans.CurrentBal(next[i]) == Loans.CurrentBal(ordered[i])
      ensures Loans.RoundedIntDue(next[i]) <= Loans.RoundedIntDue(ordered[i])
    {
      assert ordered[i] in ordered;
      PositionAt(ordered, paid, next, i);
    }
  }

  lemma PositionAt(ordered: seq<Loans.Loan>, paid: seq<Loans.Loan>, next: seq<Loans.Loan>, i: int)
    requires 0 <= i < |ordered| && |paid| == |ordered| && |next| == |ordered|
    requires next[i] == Loans.PayMonth(paid[i])
    requires ordered[i].rate >= 0 && Loans.CurrentBal(ordered[i]) >= 1
    requires paid[i] == ordered[i].(payment := paid[i].payment)
    requires i < |ordered| - 1 ==> paid[i].payment == Loans.RoundedIntDue(ordered[i])
    requires i == |ordered| - 1 ==> paid[i].payment >= Loans.RoundedIntDue(ordered[i]) + 1
    ensures next[i].rate >= 0 && 0 <= Loans.CurrentBal(next[i]) <= Loans.CurrentBal(ordered[i])
    ensures i == |ordered| - 1 ==> Loans.CurrentBal(next[i]) < Loans.CurrentBal(ordered[i])
    ensures i < |ordered| - 1 ==> Loans.CurrentBal(next[i]) == Loans.CurrentBal(ordered[i])
    ensures Loans.RoundedIntDue(next[i]) <= Loans.RoundedIntDue(ordered[i])
  {
    PositionStep(ordered[i], paid[i], i == |ordered| - 1);
  }

  /** With the 'int' minimum and a budget above the interest due, the
      minimums are the rounded interest and at least a cent is left over. */
  lemma InterestAllocation(ordered: Queue)
    requires Seqs.SumOf(ordered.loans, Loans.RoundedIntDue) < Budget(ordered)
    ensures SetAllPayments(ordered, InterestDue).Success?
    ensures var a := SetAllPayments(ordered, InterestDue).value;
      && a.remainder >= 1 && SamePositions(ordered, a.queue)
      && forall i :: 0 <= i < |ordered.loans| ==> a.queue.loans[i].payment == Loans.RoundedIntDue(ordered.loans[i])
  {
    var a := SetAllPayments(ordered, InterestDue).value;
    var n := |ordered.loans|;
    forall i | 0 <= i < n
      ensures a.queue.loans[i].payment == Loans.RoundedIntDue(ordered.loans[i])
    {
      assert MinimumFor(Budget(ordered), n, ordered.loans[i], InterestDue) == Success(a.queue.loans[i].payment);
    }
    InterestDueTotal(ordered, a.queue);
  }

  /** The remainder goes on top of the last loan's minimum. */
  lemma TargetDistribution(ordered: Queue, given: Queue, key: Key, rem: int)
    requires !Spreads(key) && |ordered.loans| > 0 && rem >= 1
    requires SamePositions(ordered, given)
    requires forall i :: 0 <= i < |ordered.loans| ==> given.loans[i].payment == Loans.RoundedIntDue(ordered.loans[i])
    ensures Distribute(given, key, rem).Success?
    ensures var paid := Distribute(given, key, rem).value;
      && |paid.loans| == |ordered.loans|
      && (forall i :: 0 <= i < |ordered.loans| ==> paid.loans[i] == ordered.loans[i].(payment := paid.loans[i].payment))
      && (forall i :: 0 <= i < |ordered.loans| - 1 ==> paid.loans[i].payment == Loans.RoundedIntDue(ordered.loans[i]))
      && paid.loans[|ordered.loans| - 1].payment >= Loans.RoundedIntDue(ordered.loans[|ordered.loans| - 1]) + 1
  {
  }

  /** One round of a targeted strategy with the 'int' minimum, when the
      budget exceeds the interest due: it succeeds, the total balance goes
      down, no balance goes up, and so the interest due does not rise. */
  lemma TargetedRound(temp: Queue, key: Key)
    requires !Spreads(key) && |temp.loans| > 0 && temp.explicitBudget.Some?
    requires forall l :: l in temp.loans ==> l.rate >= 0 && Loans.CurrentBal(l) >= 1
    requires Seqs.SumOf(temp.loans, Loans.RoundedIntDue) < Budget(temp)
    ensures PayRound(temp, key, InterestDue).Success?
    ensures var next := PayRound(temp, key, InterestDue).value;
      && (forall l :: l in next.loans ==> l.rate >= 0 && Loans.CurrentBal(l) >= 0)
      && Seqs.SumOf(next.loans, Loans.CurrentBal) < Seqs.SumOf(temp.loans, Loans.CurrentBal)
      && Seqs.SumOf(next.loans, Loans.RoundedIntDue) <= Seqs.SumOf(temp.loans, Loans.RoundedIntDue)
  {
    var ordered := if OrderEvery(key) then Prioritize(temp, key) else temp;
    Reordered(temp, ordered);
    OrderedRound(ordered, key);
  }

  /** The same, once the queue is in order. */
  lemma OrderedRound(ordered: Queue, key: Key)
    requires !Spreads(key) && |ordered.loans| > 0
    requires forall l :: l in ordered.loans ==> l.rate >= 0 && Loans.CurrentBal(l) >= 1
    requires Seqs.SumOf(ordered.loans, Loans.RoundedIntDue) < Budget(ordered)
    ensures PayOrdered(ordered, key, InterestDue).Success?
    ensures var next := PayOrdered(ordered, key, InterestDue).value;
      && (forall l :: l in next.loans ==> l.rate >= 0 && Loans.CurrentBal(l) >= 0)
      && Seqs.SumOf(next.loans, Loans.CurrentBal) < Seqs.SumOf(ordered.loans, Loans.CurrentBal)
      && Seqs.SumOf(next.loans, Loans.RoundedIntDue) <= Seqs.SumOf(ordered.loans, Loans.RoundedIntDue)
  {
    InterestAllocation(ordered);
    var alloc := SetAllPayments(ordered, InterestDue).value;
    TargetDistribution(ordered, alloc.queue, key, alloc.remainder);
    var paid := Distribute(alloc.queue, key, alloc.remainder).value;
    PaidRound(ordered.loans, paid);
  }

  /** "Paying only minimums on all except target": with the 'int' minimum
      a targeted round leaves every balance but the last loan's exactly as
      it was, and brings the last one down. */
  lemma OnlyTargetMoves(ordered: Queue, key: Key)
    requires !Spreads(key) && |ordered.loans| > 0
    requires forall l :: l in ordered.loans ==> l.rate >= 0 && Loans.CurrentBal(l) >= 1
    requires Seqs.SumOf(ordered.loans, Loans.RoundedIntDue) < Budget(ordered)
    ensures PayOrdered(ordered, key, InterestDue).Success?
    ensures var next := PayOrdered(ordered, key, InterestDue).value.loans;
      var n := |ordered.loans| - 1;
      && |next| == n + 1
      && (forall i :: 0 <= i < n ==> Loans.CurrentBal(next[i]) == Loans.CurrentBal(ordered.loans[i]))
      && Loans.CurrentBal(next[n]) < Loans.CurrentBal(ordered.loans[n])
  {
    InterestAllocation(ordered);
    var alloc := SetAllPayments(ordered, InterestDue).value;
    TargetDistribution(ordered, alloc.queue, key, alloc.remainder);
    var paid := Distribute(alloc.queue, key, alloc.remainder).value;
    PayEachAt(paid.loans);
    AllPositions(ordered.loans, paid.loans, PayAll(paid).loans);
  }

  /** The payments of a targeted round, made. */
  lemma PaidRound(ordered: seq<Loans.Loan>, paid: Queue)
    requires |ordered| > 0 && |paid.loans| == |ordered|
    requires forall l :: l in ordered ==> l.rate >= 0 && Loans.CurrentBal(l) >= 1
    requires forall i :: 0 <= i < |ordered| ==> paid.loans[i] == ordered[i].(payment := paid.loans[i].payment)
    requires forall i :: 0 <= i < |ordered| - 1 ==> paid.loans[i].payment == Loans.RoundedIntDue(ordered[i])
    requires paid.loans[|ordered| - 1].payment >= Loans.RoundedIntDue(ordered[|ordered| - 1]) + 1
    ensures var next := PayAll(paid).loans;
      && (forall l :: l in next ==> l.rate >= 0 && Loans.CurrentBal(l) >= 0)
      && Seqs.SumOf(next, Loans.CurrentBal) < Seqs.SumOf(ordered, Loans.CurrentBal)
      && Seqs.SumOf(next, Loans.RoundedIntDue) <= Seqs.SumOf(ordered, Loans.RoundedIntDue)
  {
    PayEachAt(paid.loans);
    AllPositions(ordered, paid.loans, PayAll(paid).loans);
    PositionSums(ordered, PayAll(paid).loans);
  }

  /** Reordering keeps the loans, their totals and the budget. */
  lemma Reordered(temp: Queue, ordered: Queue)
    requires multiset(ordered.loans) == multiset(temp.loans) && ordered.explicitBudget == temp.explicitBudget
    requires temp.explicitBudget.Some?
    ensures |ordered.loans| == |temp.loans| && Budget(ordered) == Budget(temp)
    ensures forall l :: l in ordered.loans ==> l in temp.loans
    ensures Seqs.SumOf(ordered.loans, Loans.RoundedIntDue) == Seqs.SumOf(temp.loans, Loans.RoundedIntDue)
    ensures Seqs.SumOf(ordered.loans, Loans.CurrentBal) == Seqs.SumOf(temp.loans, Loans.CurrentBal)
  {
    assert |multiset(ordered.loans)| == |multiset(temp.loans)|;
    assert forall l :: l in ordered.loans ==> l in multiset(temp.loans);
    Seqs.SumOfPermutation(ordered.loans, temp.loans, Loans.RoundedIntDue);
    Seqs.SumOfPermutation(ordered.loans, temp.loans, Loans.CurrentBal);
  }

  lemma RoundedIntDueNonNegative(xs: seq<Loans.Loan>)
    requires forall l :: l in xs ==> l.rate >= 0 && Loans.CurrentBal(l) >= 0
    ensures forall l :: l in xs ==> Loans.RoundedIntDue(l) >= 0
  {
    forall l | l in xs
      ensures Loans.RoundedIntDue(l) >= 0
    {
      Loans.IntDueNonNegative(l);
    }
  }

  /** What a targeted round relies on: a fixed budget above the interest
      due, and no negative rate or balance. */
  predicate Targetable(t: Queue) {
    && t.explicitBudget.Some?
    && (forall l :: l in t.loans ==> l.rate >= 0 && Loans.CurrentBal(l) >= 0)
    && Seqs.SumOf(t.loans, Loans.RoundedIntDue) < Budget(t)
  }

  /** The cents still owed on a queue. */
  function Owed(t: Queue): int {
    Seqs.SumOf(t.loans, Loans.CurrentBal)
  }

  lemma {:induction false} OwedNonNegative(xs: seq<Loans.Loan>)
    requires forall l :: l in xs ==> Loans.CurrentBal(l) >= 0
    ensures Seqs.SumOf(xs, Loans.CurrentBal) >= 0
  {
    if |xs| > 0 {
      assert forall l :: l in xs[1..] ==> l in xs;
      OwedNonNegative(xs[1..]);
    }
  }

  /** A round that, on a targetable queue none of whose loans is paid off,
      succeeds, leaves the queue targetable and takes at least a cent off
      what is owed. */
  ghost predicate Progressing(round: Queue -> Result<Queue>) {
    forall t :: ProgressesFrom(round, t)
  }

  /** The round makes progress from t, if t is targetable and none of its
      loans is paid off. */
  predicate ProgressesFrom(round: Queue -> Result<Queue>, t: Queue) {
    Targetable(t) && |t.loans| > 0 && NoneComplete(t.loans) ==>
      round(t).Success? && Targetable(round(t).value) && Owed(round(t).value) < Owed(t)
  }

  /** A progressing round on a queue none of whose loans is paid off. */
  lemma RoundProgress(round: Queue -> Result<Queue>, temp: Queue) returns (next: Queue)
    requires Progressing(round) && Targetable(temp) && |temp.loans| > 0 && NoneComplete(temp.loans)
    ensures round(temp) == Success(next)
    ensures Targetable(next) && 0 <= Owed(next) < Owed(temp)
  {
    assert ProgressesFrom(round, temp);
    next := round(temp).value;
    OwedNonNegative(next.loans);
  }

  /** Moving the paid-off loans keeps a queue targetable and owes no more. */
  lemma PopKeepsTargetable(temp: Queue)
    requires Targetable(temp)
    ensures Targetable(temp.(loans := Seqs.Filter(temp.loans, Unfinished)))
    ensures Owed(temp.(loans := Seqs.Filter(temp.loans, Unfinished))) <= Owed(temp)
  {
    RoundedIntDueNonNegative(temp.loans);
    Seqs.SumOfFilterLe(temp.loans, Unfinished, Loans.CurrentBal);
    Seqs.SumOfFilterLe(temp.loans, Unfinished, Loans.RoundedIntDue);
  }

  /** The driver finishes with a progressing round once it may run as many
      rounds as there are cents owed. */
  lemma {:induction false} DriveFinishes(temp: Queue, done: Queue, round: Queue -> Result<Queue>, rounds: nat, payments: nat, fuel: nat)
    requires Progressing(round) && Targetable(temp) && fuel >= Owed(temp)
    ensures Drive(temp, done, round, rounds, payments, fuel).Success?
    decreases fuel, |temp.loans|
  {
    if |temp.loans| == 0 {
    } else if NoneComplete(temp.loans) {
      var next := RoundProgress(round, temp);
      RoundUnfolds(temp, done, round, rounds, payments, fuel, next);
      DriveFinishes(next, done, round, rounds + 1, payments + |temp.loans|, fuel - 1);
    } else {
      var finished := Seqs.Filter(temp.loans, Loans.IsComplete);
      var rest := Seqs.Filter(temp.loans, Unfinished);
      PopKeepsTargetable(temp);
      PopUnfolds(temp, done, round, rounds, payments, fuel);
      DriveFinishes(temp.(loans := rest), done.(loans := done.loans + finished), round, rounds, payments, fuel);
    }
  }

  /** The round of avalanche, blizzard and snowball with the 'int' minimum
      progresses. */
  lemma TargetedRoundsProgress(key: Key)
    requires !Spreads(key)
    ensures Progressing(RoundOf(key, InterestDue))
  {
    forall t
      ensures ProgressesFrom(RoundOf(key, InterestDue), t)
    {
      if Targetable(t) && |t.loans| > 0 && NoneComplete(t.loans) {
        TargetedStep(t, key);
      }
    }
  }

  lemma TargetedStep(t: Queue, key: Key)
    requires !Spreads(key) && Targetable(t) && |t.loans| > 0 && NoneComplete(t.loans)
    ensures PayRound(t, key, InterestDue).Success?
    ensures Targetable(PayRound(t, key, InterestDue).value)
    ensures Owed(PayRound(t, key, InterestDue).value) < Owed(t)
  {
    TargetedRound(t, key);
    PayRoundKeeps(t, key, InterestDue);
  }

  /** The branches of a queue owe what the queue owes. */
  lemma BranchOwes(q: Queue)
    ensures Seqs.SumOf(Branch(q).loans, Loans.CurrentBal) == Seqs.SumOf(q.loans, Loans.CurrentBal)
    ensures Seqs.SumOf(Branch(q).loans, Loans.RoundedIntDue) == Seqs.SumOf(q.loans, Loans.RoundedIntDue)
  {
    var b := Branch(q).loans;
    Seqs.SumOfLe(b, q.loans, Loans.CurrentBal, Loans.CurrentBal);
    Seqs.SumOfLe(q.loans, b, Loans.CurrentBal, Loans.CurrentBal);
    Seqs.SumOfLe(b, q.loans, Loans.RoundedIntDue, Loans.RoundedIntDue);
    Seqs.SumOfLe(q.loans, b, Loans.RoundedIntDue, Loans.RoundedIntDue);
  }

  /** The queue debt_solve starts from holds the branches of the loans,
      under the queue's budget. */
  lemma StartLoans(q: Queue, key: Key)
    ensures var temp := StartQueue(q, key);
      && |temp.loans| == |q.loans| && temp.explicitBudget == Some(Budget(q))
      && (forall l :: l in temp.loans ==> exists i :: 0 <= i < |q.loans| && l == Loans.Branch(q.loans[i]))
      && Owed(temp) == Owed(q)
      && Seqs.SumOf(temp.loans, Loans.RoundedIntDue) == Seqs.SumOf(q.loans, Loans.RoundedIntDue)
  {
    var branched := Branch(q);
    var temp := StartQueue(q, key);
    BranchOwes(q);
    forall l | l in temp.loans
      ensures exists i :: 0 <= i < |q.loans| && l == Loans.Branch(q.loans[i])
    {
      assert l in multiset(branched.loans);
      var i :| 0 <= i < |branched.loans| && branched.loans[i] == l;
    }
    Seqs.SumOfPermutation(temp.loans, branched.loans, Loans.RoundedIntDue);
    Seqs.SumOfPermutation(temp.loans, branched.loans, Loans.CurrentBal);
  }

  /** A targeted strategy (avalanche, blizzard, snowball) with the 'int'
      minimum completes whenever the budget exceeds the total interest due
      and no rate or balance is negative: each round takes at least a cent
      off the target and nothing is added anywhere else. */
  lemma TargetedStrategyFinishes(q: Queue, key: Key, fuel: nat)
    requires !Spreads(key)
    requires forall l :: l in q.loans ==> l.rate >= 0 && Loans.CurrentBal(l) >= 0
    requires Seqs.SumOf(q.loans, Loans.RoundedIntDue) < Budget(q)
    requires fuel >= Owed(q)
    ensures DebtSolve(q, key, InterestDue, fuel).Success?
  {
    StartTargetable(q, key);
    TargetedDriveFinishes(StartQueue(q, key), DoneQueue(q), key, fuel);
  }

  lemma TargetedDriveFinishes(temp: Queue, done: Queue, key: Key, fuel: nat)
    requires !Spreads(key) && Targetable(temp) && fuel >= Owed(temp)
    ensures Drive(temp, done, RoundOf(key, InterestDue), 0, 0, fuel).Success?
  {
    TargetedRoundsProgress(key);
    DriveFinishes(temp, done, RoundOf(key, InterestDue), 0, 0, fuel);
  }

  lemma StartTargetable(q: Queue, key: Key)
    requires forall l :: l in q.loans ==> l.rate >= 0 && Loans.CurrentBal(l) >= 0
    requires Seqs.SumOf(q.loans, Loans.RoundedIntDue) < Budget(q)
    ensures Targetable(StartQueue(q, key)) && Owed(StartQueue(q, key)) == Owed(q)
  {
    StartLoans(q, key);
    StartNonNegative(q, key);
  }

  lemma StartNonNegative(q: Queue, key: Key)
    requires forall l :: l in q.loans ==> l.rate >= 0 && Loans.CurrentBal(l) >= 0
    ensures forall l :: l in StartQueue(q, key).loans ==> l.rate >= 0 && Loans.CurrentBal(l) >= 0
  {
    var branched := Branch(q).loans;
    forall l | l in StartQueue(q, key).loans
      ensures l.rate >= 0 && Loans.CurrentBal(l) >= 0
    {
      assert l in multiset(branched);
      var i :| 0 <= i < |branched| && branched[i] == l;
      BranchNonNegative(q.loans[i]);
    }
  }

  lemma BranchNonNegative(l: Loans.Loan)
    requires l.rate >= 0 && Loans.CurrentBal(l) >= 0
    ensures Loans.Branch(l).rate >= 0 && Loans.CurrentBal(Loans.Branch(l)) >= 0
  {
  }

  /** ... and when the interest due exceeds the budget on loans that all
      still owe something, the first round raises ValueError. */
  lemma InfeasibleBudgetFails(q: Queue, key: Key, fuel: nat)
    requires fuel >= 1 && |q.loans| > 0
    requires forall l :: l in q.loans ==> !Loans.IsComplete(l)
    requires Seqs.SumOf(q.loans, Loans.RoundedIntDue) > Budget(q)
    ensures DebtSolve(q, key, InterestDue, fuel) == Failure(ValueError)
  {
    var temp := StartQueue(q, key);
    StartLoans(q, key);
    StartNoneComplete(q, key);
    InfeasibleRoundFails(temp, key);
    assert Drive(temp, DoneQueue(q), RoundOf(key, InterestDue), 0, 0, fuel) == Failure(ValueError);
  }

  lemma StartNoneComplete(q: Queue, key: Key)
    requires forall l :: l in q.loans ==> !Loans.IsComplete(l)
    ensures NoneComplete(StartQueue(q, key).loans)
  {
    var branched := Branch(q).loans;
    forall l | l in StartQueue(q, key).loans
      ensures Unfinished(l)
    {
      assert l in multiset(branched);
      var i :| 0 <= i < |branched| && branched[i] == l;
      assert q.loans[i] in q.loans;
    }
  }

  /** A round whose interest due exceeds the fixed budget raises ValueError. */
  lemma InfeasibleRoundFails(temp: Queue, key: Key)
    requires temp.explicitBudget.Some?
    requires Seqs.SumOf(temp.loans, Loans.RoundedIntDue) > Budget(temp)
    ensures RoundOf(key, InterestDue)(temp) == Failure(ValueError)
  {
    var ordered := if OrderEvery(key) then Prioritize(temp, key) else temp;
    Seqs.SumOfPermutation(ordered.loans, temp.loans, Loans.RoundedIntDue);
    assert SetAllPayments(ordered, InterestDue) == Failure(ValueError);
  }

  // ---------------------------------------------------------------------
  // finish
  // ---------------------------------------------------------------------

  /** The strategies in the order finish runs them. */
  const FinishOrder: seq<Key> := [Avalanche, Cascade, Blizzard, IceSlide, Snowball]

  /** Solve the queue with each key in turn; the first strategy that raises
      ends the list. */
  function SolveEach(q: Queue, keys: seq<Key>, m: Minimum, fuel: nat): (r: Result<seq<Solved>>)
    ensures r.Success? ==> |r.value| == |keys|
    ensures r.Success? ==> forall i :: 0 <= i < |keys| ==> SolvedFrom(q, r.value[i])
  {
    if |keys| == 0 then Success([])
    else
      var first :- DebtSolve(q, keys[0], m, fuel);
      var rest :- SolveEach(q, keys[1..], m, fuel);
      Seqs.AllCons(first, rest, s => SolvedFrom(q, s));
      Success([first] + rest)
  }

  /** The list fails exactly when one of the strategies does ... */
  lemma {:induction false} SolveEachFails(q: Queue, keys: seq<Key>, m: Minimum, fuel: nat)
    ensures SolveEach(q, keys, m, fuel).Success? <==> forall i :: 0 <= i < |keys| ==> DebtSolve(q, keys[i], m, fuel).Success?
  {
    if |keys| > 0 {
      var tail := keys[1..];
      SolveEachFails(q, tail, m, fuel);
      SolveEachCons(q, keys, m, fuel);
      if forall i :: 0 <= i < |keys| ==> DebtSolve(q, keys[i], m, fuel).Success? {
        forall i | 0 <= i < |tail|
          ensures DebtSolve(q, tail[i], m, fuel).Success?
        {
          assert tail[i] == keys[i + 1];
        }
      } else {
        var i :| 0 <= i < |keys| && !DebtSolve(q, keys[i], m, fuel).Success?;
        if i > 0 {
          assert keys[i] == tail[i - 1];
        }
      }
    }
  }

  /** One step of the list: it succeeds when its first strategy and the
      rest do. */
  lemma SolveEachCons(q: Queue, keys: seq<Key>, m: Minimum, fuel: nat)
    requires |keys| > 0
    ensures SolveEach(q, keys, m, fuel).Success?
        <==> DebtSolve(q, keys[0], m, fuel).Success? && SolveEach(q, keys[1..], m, fuel).Success?
  {
  }

  /** ... and each solve in it is the one its strategy returns. */
  lemma {:induction false} SolveEachRuns(q: Queue, keys: seq<Key>, m: Minimum, fuel: nat)
    requires forall i :: 0 <= i < |keys| ==> DebtSolve(q, keys[i], m, fuel).Success?
    ensures SolveEach(q, keys, m, fuel).Success?
    ensures forall i :: 0 <= i < |keys| ==> SolveEach(q, keys, m, fuel).value[i] == DebtSolve(q, keys[i], m, fuel).value
  {
    if |keys| > 0 {
      var tail := keys[1..];
      assert forall i :: 0 <= i < |tail| ==> tail[i] == keys[i + 1];
      SolveEachRuns(q, tail, m, fuel);
      var first := DebtSolve(q, keys[0], m, fuel).value;
      var rest := SolveEach(q, tail, m, fuel).value;
      assert SolveEach(q, keys, m, fuel) == Success([first] + rest);
      forall i | 0 <= i < |keys|
        ensures ([first] + rest)[i] == DebtSolve(q, keys[i], m, fuel).value
      {
        if i > 0 {
          assert ([first] + rest)[i] == rest[i - 1];
        }
      }
    }
  }

  /** The queues of a list of solves. */
  function Queues(solved: seq<Solved>): (r: seq<Queue>)
    ensures |r| == |solved|
  {
    Seqs.MapSeq(solved, (s: Solved) => s.queue)
  }

  /** Every queue of the grid is paid off and holds the branches of all the
      loans, under the queue's budget and title. */
  predicate Solves(q: Queue, grid: seq<Queue>) {
    forall s :: s in grid ==>
      && LoanQueues.IsComplete(s)
      && |s.loans| == |q.loans| && multiset(Ids(s.loans)) == multiset(Ids(Branch(q).loans))
      && Budget(s) == Budget(q) && s.title == q.title
  }

  lemma GridSolves(q: Queue, solved: seq<Solved>)
    requires forall i :: 0 <= i < |solved| ==> SolvedFrom(q, solved[i])
    ensures Solves(q, Queues(solved))
  {
  }

  /** Ranking a grid keeps what every queue in it solves. */
  lemma RankedSolves(q: Queue, grid: seq<Queue>, goal: Comparisons.Goal)
    requires Solves(q, grid) && Comparisons.OrderBy(grid, goal).Success?
    ensures Solves(q, Comparisons.OrderBy(grid, goal).value)
  {
    var ranked := Comparisons.OrderBy(grid, goal).value;
    assert forall s :: s in ranked ==> s in multiset(grid);
  }

  /** finish(goal, minimum): all five strategies, ranked by the goal. Every
      queue in the grid is complete and holds the branches of all the
      loans; 'time' on a queue without loans raises ValueError. */
  function Finish(q: Queue, goal: Comparisons.Goal, m: Minimum, fuel: nat): (r: Result<seq<Queue>>)
    ensures r.Success? ==> |r.value| == 5 && Solves(q, r.value)
    ensures r.Success? && Comparisons.Ranks(goal) ==> forall i, j :: 0 <= i < j < 5 ==>
      Comparisons.Metric(goal, r.value[i]) <= Comparisons.Metric(goal, r.value[j])
  {
    var solved :- SolveEach(q, FinishOrder, m, fuel);
    var grid := Queues(solved);
    GridSolves(q, solved);
    var ranked := Comparisons.OrderBy(grid, goal);
    if ranked.Success? then
      RankedSolves(q, grid, goal);
      ranked
    else ranked
  }

  /** A grid of solves is all complete. */
  lemma SolvesAllComplete(q: Queue, grid: seq<Queue>)
    requires Solves(q, grid)
    ensures Comparisons.AllComplete(grid)
  {
  }

  /** With no loans, finish fails exactly for 'time', whose max() has
      nothing to range over. */
  lemma FinishEmpty(q: Queue, goal: Comparisons.Goal, m: Minimum, fuel: nat)
    requires |q.loans| == 0
    ensures Finish(q, goal, m, fuel).Failure? <==> goal == Comparisons.ByTime
  {
    forall i | 0 <= i < |FinishOrder|
      ensures DebtSolve(q, FinishOrder[i], m, fuel).Success?
    {
      EmptyQueueSolves(q, FinishOrder[i], m, fuel);
    }
    SolveEachFails(q, FinishOrder, m, fuel);
    var grid := Queues(SolveEach(q, FinishOrder, m, fuel).value);
    assert grid[0] in grid;
  }

  /** With no loans every strategy returns at once with an empty queue. */
  lemma EmptyQueueSolves(q: Queue, key: Key, m: Minimum, fuel: nat)
    requires |q.loans| == 0
    ensures DebtSolve(q, key, m, fuel).Success?
    ensures DebtSolve(q, key, m, fuel).value.rounds == 0
  {
  }
}

=== FILE: loan.dfy ===
/** The Loan class: a single amortising debt with an append-only payment
    ledger, its monthly payment arithmetic, and its payoff simulations.

    Units: money is stored as whole cents, the annual rate as whole
    hundredths of a percent, and every intermediate (interest due, principal
    portion, discount factor) is an exact real amount of cents, rounded only
    when it is written to the ledger. */
module Loans {
  import opened Outcomes
  import opened Money
  import Seqs

  /** One ledger row: balance forward, principal paid, interest paid (cents)
      and the payment number. */
  datatype Record = Record(balance: int, principal: int, interest: int, payNo: int)

  /** The ledger is seeded at construction and only ever appended to. */
  type Ledger = h: seq<Record> | |h| > 0 witness [Record(0, 0, 0, 0)]

  /** term: months; startBalance, payment: cents; rate: annual rate in
      hundredths of a percent (Dec of the percentage). */
  datatype Loan = Loan(title: string, term: int, startBalance: int, rate: int, payment: int, history: Ledger)

  const DefaultTerm: int := 12

  /** The term setter: an unset or zero term becomes twelve months. */
  function TermOrDefault(m: Option<int>): int {
    if m.None? || m.value == 0 then DefaultTerm else m.value
  }

  /** What construction establishes and every operation keeps: the seed
      record is {start balance, 0, 0, 0}, the payment numbers count the
      records, and the term is set. */
  predicate Valid(l: Loan) {
    && l.term != 0
    && l.history[0] == Record(l.startBalance, 0, 0, 0)
    && forall i :: 0 <= i < |l.history| ==> l.history[i].payNo == i
  }

  /** The fields a payment never touches. */
  predicate SameTerms(a: Loan, b: Loan) {
    && a.title == b.title && a.term == b.term && a.startBalance == b.startBalance
    && a.rate == b.rate && a.payment == b.payment
  }

  /** Loan(sb, ir, pa, title, term), with amounts in dollars and percent.
      The title is taken as given. */
  function NewLoan(sb: real, ir: real, pa: Option<real>, title: string, term: Option<int>): (l: Loan)
    ensures Valid(l) && |l.history| == 1 && PayNo(l) == 0
    ensures CurrentBal(l) == l.startBalance == Dec(sb)
    ensures l.rate == Dec(ir)
    ensures pa.None? ==> l.payment == 0
    ensures pa.Some? ==> l.payment == Dec(pa.value)
    ensures l.term != 0 && (term.Some? && term.value != 0 ==> l.term == term.value)
    ensures term.None? || term.value == 0 ==> l.term == DefaultTerm
  {
    var b := Dec(sb);
    Loan(title, TermOrDefault(term), b, Dec(ir), if pa.Some? then Dec(pa.value) else 0, [Record(b, 0, 0, 0)])
  }

  function Last(l: Loan): Record {
    l.history[|l.history| - 1]
  }

  function CurrentBal(l: Loan): int {
    Last(l).balance
  }

  function PayNo(l: Loan): int {
    Last(l).payNo
  }

  predicate IsComplete(l: Loan) {
    CurrentBal(l) == 0
  }

  /** A valid loan's payment number is the number of payments in its ledger. */
  lemma PayNoCountsPayments(l: Loan)
    requires Valid(l)
    ensures PayNo(l) == |l.history| - 1
  {
  }

  /** (int_rate / 12) / 100, as a fraction per month. */
  function MonthlyRate(l: Loan): real {
    l.rate as real / 120000.0
  }

  /** Interest due this month, in cents, unrounded. */
  function IntDue(l: Loan): real {
    MonthlyRate(l) * CurrentBal(l) as real
  }

  lemma IntDueNonNegative(l: Loan)
    requires l.rate >= 0 && CurrentBal(l) >= 0
    ensures IntDue(l) >= 0.0
  {
  }

  /** With a non-negative rate, a smaller balance owes no more interest. */
  lemma IntDueMonotone(a: Loan, b: Loan)
    requires a.rate == b.rate && a.rate >= 0
    requires CurrentBal(a) <= CurrentBal(b)
    ensures IntDue(a) <= IntDue(b)
  {
    var d := (CurrentBal(b) - CurrentBal(a)) as real;
    assert IntDue(b) - IntDue(a) == MonthlyRate(a) * d;
  }

  /** Interest due rounded to cents: the 'int' minimum payment. */
  function RoundedIntDue(l: Loan): int {
    Round(IntDue(l))
  }

  /** The principal portion of this month's payment before clamping. */
  function Margin(l: Loan): real {
    l.payment as real - IntDue(l)
  }

  /** install_payment: append one record, rounding each money field. */
  function InstallPayment(l: Loan, b: real, p: real, i: real): (r: Loan)
    ensures SameTerms(l, r)
    ensures |r.history| == |l.history| + 1 && r.history[..|l.history|] == l.history
    ensures PayNo(r) == PayNo(l) + 1
    ensures RoundsTo(b, CurrentBal(r)) && RoundsTo(p, Last(r).principal) && RoundsTo(i, Last(r).interest)
  {
    l.(history := l.history + [Record(Round(b), Round(p), Round(i), PayNo(l) + 1)])
  }

  /** pay_month. The balance forward is computed before the underpayment
      branch, so interest the payment does not cover is added to the
      balance, while the ledger shows principal 0 and interest = payment. */
  function PayMonth(l: Loan): (r: Loan)
    ensures SameTerms(l, r)
    ensures |r.history| == |l.history| + 1 && r.history[..|l.history|] == l.history
    ensures PayNo(r) == PayNo(l) + 1
    ensures Valid(l) ==> Valid(r)
    ensures CurrentBal(l) >= 0 ==> CurrentBal(r) >= 0
    // the payment more than clears the balance: only the balance is paid
    ensures Margin(l) > CurrentBal(l) as real && CurrentBal(l) >= 0 ==>
      && CurrentBal(r) == 0
      && Last(r).principal == CurrentBal(l)
      && Last(r).interest == RoundedIntDue(l)
    // the payment does not cover interest: the shortfall is capitalised
    ensures Margin(l) < 0.0 && CurrentBal(l) >= 0 ==>
      && Last(r).principal == 0
      && Last(r).interest == l.payment
      && CurrentBal(r) == Round(CurrentBal(l) as real + IntDue(l) - l.payment as real)
      && CurrentBal(r) >= CurrentBal(l)
    // an ordinary payment: the principal comes off the balance, and the
    // recorded principal differs from the fall in balance by at most a cent
    ensures 0.0 <= Margin(l) <= CurrentBal(l) as real ==>
      && Last(r).interest == RoundedIntDue(l)
      && Last(r).principal == Round(Margin(l))
      && CurrentBal(r) == Round(CurrentBal(l) as real - Margin(l))
      && 0 <= CurrentBal(r) <= CurrentBal(l)
      && CurrentBal(l) - CurrentBal(r) <= Last(r).principal <= CurrentBal(l) - CurrentBal(r) + 1
  {
    var ip := IntDue(l);
    var bal := CurrentBal(l) as real;
    var pp := l.payment as real - ip;
    var clamped := if pp > bal then bal else pp;
    var fwd := bal - clamped;
    if clamped < 0.0 then InstallPayment(l, fwd, 0.0, l.payment as real)
    else InstallPayment(l, fwd, clamped, ip)
  }

  /** A payment lowers a positive balance exactly when its principal
      portion exceeds half a cent; anything less is rounded away. */
  lemma PaymentLowersBalanceIff(l: Loan)
    requires CurrentBal(l) >= 1
    ensures CurrentBal(PayMonth(l)) < CurrentBal(l) <==> Margin(l) > 0.5
  {
    var m := Margin(l);
    var bal := CurrentBal(l);
    if 0.0 <= m <= bal as real {
      var r := CurrentBal(PayMonth(l));
      assert r == Round(bal as real - m);
    }
  }

  /** pay_months(m): at most m payments, stopping once the balance is 0. */
  function PayMonths(l: Loan, m: int): Loan
    decreases if m > 0 then m else 0
  {
    if m <= 0 || IsComplete(l) then l
    else PayMonths(PayMonth(l), m - 1)
  }

  /** pay_months(m) keeps the loan's terms and only extends the ledger, by
      at most m records; it stops early only at a zero balance, and never
      pays a balance that is already 0. */
  lemma {:induction false} PayMonthsFacts(l: Loan, m: int)
    decreases if m > 0 then m else 0
    ensures SameTerms(l, PayMonths(l, m))
    ensures |l.history| <= |PayMonths(l, m).history| <= |l.history| + (if m > 0 then m else 0)
    ensures PayMonths(l, m).history[..|l.history|] == l.history
    ensures |PayMonths(l, m).history| < |l.history| + m ==> IsComplete(PayMonths(l, m))
    ensures forall i :: |l.history| - 1 <= i < |PayMonths(l, m).history| - 1 ==>
      PayMonths(l, m).history[i].balance != 0
    ensures Valid(l) ==> Valid(PayMonths(l, m))
  {
    if m > 0 && !IsComplete(l) {
      var next := PayMonth(l);
      PayMonthsFacts(next, m - 1);
      var r := PayMonths(next, m - 1);
      assert PayMonths(l, m) == r;
      assert r.history[..|next.history|][..|l.history|] == r.history[..|l.history|];
      forall i | |l.history| - 1 <= i < |r.history| - 1
        ensures r.history[i].balance != 0
      {
        if i == |l.history| - 1 {
          assert r.history[i] == r.history[..|l.history|][i] == Last(l);
        }
      }
    }
  }

  /** Paying a months and then b more is paying a + b months. */
  lemma {:induction false} PayMonthsCompose(l: Loan, a: nat, b: nat)
    ensures PayMonths(PayMonths(l, a), b) == PayMonths(l, a + b)
    decreases a
  {
    if a > 0 && !IsComplete(l) {
      PayMonthsCompose(PayMonth(l), a - 1, b);
    }
  }

  /** can_payoff: the payment exceeds the interest due. */
  predicate CanPayoff(l: Loan) {
    Margin(l) > 0.0
  }

  /** The guard under which repeated payments are sure to make progress:
      the principal portion exceeds half a cent. */
  predicate Progresses(l: Loan) {
    Margin(l) > 0.5
  }

  function PayoffMeasure(b: int): nat {
    if b > 0 then b + 1 else if b < 0 then 1 else 0
  }

  lemma {:induction false} PayoffStep(l: Loan)
    requires Progresses(l) && !IsComplete(l)
    ensures PayoffMeasure(CurrentBal(PayMonth(l))) < PayoffMeasure(CurrentBal(l))
    ensures l.rate >= 0 && CurrentBal(PayMonth(l)) > 0 ==> Progresses(PayMonth(l))
  {
    var r := PayMonth(l);
    var bal := CurrentBal(l);
    if bal < 0 {
      assert Margin(l) > bal as real;
      assert CurrentBal(r) == 0;
    } else {
      PaymentLowersBalanceIff(l);
      if l.rate >= 0 && CurrentBal(r) > 0 {
        IntDueMonotone(r, l);
      }
    }
  }

  /** payoff, as corrected: pay monthly until the balance is 0, provided
      each payment takes more than half a cent off the principal. */
  function Payoff(l: Loan): (r: Loan)
    decreases PayoffMeasure(CurrentBal(l))
    ensures SameTerms(l, r)
    ensures |l.history| <= |r.history| && r.history[..|l.history|] == l.history
    ensures !Progresses(l) ==> r == l
    ensures Progresses(l) && l.rate >= 0 ==> IsComplete(r)
    ensures IsComplete(r) || !Progresses(r)
    ensures Valid(l) ==> Valid(r)
  {
    if IsComplete(l) || !Progresses(l) then l
    else
      PayoffStep(l);
      var next := PayMonth(l);
      var r := Payoff(next);
      assert r.history[..|next.history|][..|l.history|] == r.history[..|l.history|];
      r
  }

  /** The loop of payoff as written: pay until complete. It need not end, so
      it is given a number of months and answers None when they run out. */
  function PayUntilComplete(l: Loan, fuel: nat): (r: Option<Loan>)
    decreases fuel
    ensures r.Some? ==> IsComplete(r.value) && SameTerms(l, r.value)
    ensures r.Some? ==> |l.history| <= |r.value.history| <= |l.history| + fuel
    ensures r.Some? ==> r.value.history[..|l.history|] == l.history
  {
    if IsComplete(l) then Some(l)
    else if fuel == 0 then None
    else
      var next := PayMonth(l);
      var r := PayUntilComplete(next, fuel - 1);
      assert r.Some? ==> r.value.history[..|next.history|][..|l.history|] == r.value.history[..|l.history|];
      r
  }

  /** payoff as written: guarded only by can_payoff. */
  function PayoffAsWritten(l: Loan, fuel: nat): (r: Option<Loan>)
    ensures !CanPayoff(l) ==> r == Some(l)
  {
    if CanPayoff(l) then PayUntilComplete(l, fuel) else Some(l)
  }

  /** When the principal portion is positive but at most half a cent, the
      rounded balance never moves, so payoff as written never finishes, for
      any number of months, although can_payoff holds. */
  lemma {:induction false} PayoffAsWrittenStalls(l: Loan, fuel: nat)
    requires CurrentBal(l) >= 1 && 0.0 < Margin(l) <= 0.5
    ensures CanPayoff(l)
    ensures PayoffAsWritten(l, fuel) == None
  {
    StallForever(l, fuel);
  }

  lemma {:induction false} StallForever(l: Loan, fuel: nat)
    requires CurrentBal(l) >= 1 && 0.0 < Margin(l) <= 0.5
    ensures PayUntilComplete(l, fuel) == None
    decreases fuel
  {
    PaymentLowersBalanceIff(l);
    var next := PayMonth(l);
    assert CurrentBal(next) == CurrentBal(l);
    if fuel > 0 {
      StallForever(next, fuel - 1);
    }
  }

  /** A concrete stalled loan: $101.20 at 6.00% paying $0.51 a month owes
      $0.506 interest, so each payment takes 0.4 cents off the principal and
      the balance rounds back to $101.20. */
  function StalledLoan(): Loan {
    NewLoan(101.20, 6.00, Some(0.51), "stalled", None)
  }

  lemma StalledLoanNeverPaysOff(fuel: nat)
    ensures CanPayoff(StalledLoan())
    ensures PayoffAsWritten(StalledLoan(), fuel) == None
  {
    var l := StalledLoan();
    assert CurrentBal(l) == 10120 && l.rate == 600 && l.payment == 51;
    assert IntDue(l) == 50.6;
    PayoffAsWrittenStalls(l, fuel);
  }

  /** Where payoff as written does finish under the corrected guard, the
      two agree. */
  lemma {:induction false} PayoffAgreesWithAsWritten(l: Loan, fuel: nat)
    requires (Progresses(l) || IsComplete(l)) && l.rate >= 0
    requires fuel >= PayoffMeasure(CurrentBal(l))
    ensures PayUntilComplete(l, fuel) == Some(Payoff(l))
    ensures Progresses(l) ==> PayoffAsWritten(l, fuel) == Some(Payoff(l))
    decreases fuel
  {
    if !IsComplete(l) {
      PayoffStep(l);
      var next := PayMonth(l);
      PayoffAgreesWithAsWritten(next, fuel - 1);
    }
  }

  /** branch: a fresh loan that starts from this loan's current balance. */
  function Branch(l: Loan): (r: Loan)
    ensures Valid(r) && |r.history| == 1 && PayNo(r) == 0
    ensures r.startBalance == CurrentBal(l) && CurrentBal(r) == CurrentBal(l)
    ensures r.rate == l.rate && r.payment == l.payment && r.title == l.title
    ensures l.term != 0 ==> r.term == l.term
    ensures IntDue(r) == IntDue(l) && Margin(r) == Margin(l)
  {
    DecOfHundredths(CurrentBal(l));
    DecOfHundredths(l.rate);
    DecOfHundredths(l.payment);
    NewLoan(CurrentBal(l) as real / 100.0, l.rate as real / 100.0,
            Some(l.payment as real / 100.0), l.title, Some(l.term))
  }

  /** A branch of a branch is the branch: it carries over every field. */
  lemma BranchIdempotent(l: Loan)
    requires l.term != 0
    ensures Branch(Branch(l)) == Branch(l)
  {
    var b, bb := Branch(l), Branch(Branch(l));
    assert bb.history == [bb.history[0]] == [b.history[0]] == b.history;
  }

  /** solve: pay off a branch, leaving this loan as it was. */
  function Solve(l: Loan): (r: Loan)
    ensures r.startBalance == CurrentBal(l) && r.rate == l.rate && r.payment == l.payment
    ensures Valid(r)
    ensures Progresses(l) && l.rate >= 0 ==> IsComplete(r)
    ensures !Progresses(l) ==> r == Branch(l)
  {
    Payoff(Branch(l))
  }

  // ---------------------------------------------------------------------
  // recursive_solve: the unrounded mirror of pay_month
  // ---------------------------------------------------------------------

  /** [balance, interest accumulated, number of payments] */
  datatype Solution = Solution(balance: real, interest: real, payments: nat)

  /** The inner recursion of recursive_solve. Nothing is rounded, the
      overpayment clamp uses >=, and a payment below interest leaves the
      negative principal portion in place, so the balance grows. It need
      not end, so it carries a step budget and answers None when it runs
      out. */
  function SolveFrom(mr: real, pa: real, goal: Option<int>, c: real, ic: real, n: nat, fuel: nat): (r: Option<Solution>)
    decreases fuel
    ensures r.Some? ==> n <= r.value.payments <= n + fuel
    ensures r.Some? ==> r.value.balance == 0.0 || (goal.Some? && r.value.payments == goal.value)
  {
    if c == 0.0 || (goal.Some? && n == goal.value) then Some(Solution(c, ic, n))
    else if fuel == 0 then None
    else
      var ip := mr * c;
      var pmt := pa - ip;
      if pmt < 0.0 then SolveFrom(mr, pa, goal, c - pmt, ic + pa, n + 1, fuel - 1)
      else if pmt >= c then SolveFrom(mr, pa, goal, 0.0, ic + ip, n + 1, fuel - 1)
      else SolveFrom(mr, pa, goal, c - pmt, ic + ip, n + 1, fuel - 1)
  }

  /** recursive_solve(goal): returns [balance, 0, 0] at once when there is
      no goal and the payment does not exceed the interest due. */
  function RecursiveSolve(l: Loan, goal: Option<int>, fuel: nat): (r: Option<Solution>)
    ensures goal.None? && !CanPayoff(l) ==> r == Some(Solution(CurrentBal(l) as real, 0.0, 0))
    ensures goal.Some? && goal.value == 0 ==> r == Some(Solution(CurrentBal(l) as real, 0.0, 0))
  {
    var s := CurrentBal(l) as real;
    if goal.None? && l.payment as real <= MonthlyRate(l) * s then Some(Solution(s, 0.0, 0))
    else SolveFrom(MonthlyRate(l), l.payment as real, goal, s, 0.0, 0, fuel)
  }

  /** With a goal g, the recursion stops after at most g payments, and
      before g only because the balance reached 0. */
  lemma {:induction false} SolveFromGoal(mr: real, pa: real, g: int, c: real, ic: real, n: nat, fuel: nat)
    requires n <= g && fuel >= g - n
    ensures SolveFrom(mr, pa, Some(g), c, ic, n, fuel).Some?
    ensures var s := SolveFrom(mr, pa, Some(g), c, ic, n, fuel).value;
      n <= s.payments <= g && (s.payments == g || s.balance == 0.0)
    decreases fuel
  {
    if !(c == 0.0 || n == g) {
      var ip := mr * c;
      var pmt := pa - ip;
      var c' := if pmt < 0.0 then c - pmt else if pmt >= c then 0.0 else c - pmt;
      var ic' := if pmt < 0.0 then ic + pa else ic + ip;
      SolveFromGoal(mr, pa, g, c', ic', n + 1, fuel - 1);
    }
  }

  /** Without a goal, a non-negative rate and a payment that exceeds the
      interest on the starting balance by d, every step lowers the balance
      by at least d, so the recursion ends with a balance of exactly 0
      within balance / d steps. */
  lemma {:induction false} SolveFromPaysOff(mr: real, pa: real, c: real, ic: real, n: nat, fuel: nat, d: real)
    requires mr >= 0.0 && c >= 0.0 && d > 0.0
    requires pa - mr * c >= d
    requires fuel as real * d >= c
    ensures SolveFrom(mr, pa, None, c, ic, n, fuel).Some?
    ensures var s := SolveFrom(mr, pa, None, c, ic, n, fuel).value;
      s.balance == 0.0 && n <= s.payments <= n + fuel
    decreases fuel
  {
    if c != 0.0 {
      var ip := mr * c;
      var pmt := pa - ip;
      assert fuel > 0;
      if pmt >= c {
        assert pa - mr * 0.0 >= d;
        SolveFromPaysOff(mr, pa, 0.0, ic + ip, n + 1, fuel - 1, d);
      } else {
        var c' := c - pmt;
        assert mr * c' <= mr * c by {
          assert mr * c - mr * c' == mr * pmt;
        }
        assert (fuel - 1) as real * d == fuel as real * d - d;
        SolveFromPaysOff(mr, pa, c', ic + ip, n + 1, fuel - 1, d);
      }
    }
  }

  lemma RecursiveSolvePaysOff(l: Loan, fuel: nat)
    requires l.rate >= 0 && CurrentBal(l) >= 0 && CanPayoff(l)
    requires fuel as real * Margin(l) >= CurrentBal(l) as real
    ensures RecursiveSolve(l, None, fuel).Some?
    ensures RecursiveSolve(l, None, fuel).value.balance == 0.0
    ensures RecursiveSolve(l, None, fuel).value.payments <= fuel
  {
    SolveFromPaysOff(MonthlyRate(l), l.payment as real, CurrentBal(l) as real, 0.0, 0, fuel, Margin(l));
  }

  lemma RecursiveSolveGoal(l: Loan, g: int, fuel: nat)
    requires 0 <= g <= fuel
    ensures RecursiveSolve(l, Some(g), fuel).Some?
    ensures var s := RecursiveSolve(l, Some(g), fuel).value;
      s.payments <= g && (s.payments == g || s.balance == 0.0)
  {
    SolveFromGoal(MonthlyRate(l), l.payment as real, g, CurrentBal(l) as real, 0.0, 0, fuel);
  }

  /** k payments of pa, added up one at a time. */
  function Installments(k: nat, pa: real): real {
    if k == 0 then 0.0 else Installments(k - 1, pa) + pa
  }

  lemma {:induction false} InstallmentsProduct(k: nat, pa: real)
    ensures Installments(k, pa) == k as real * pa
  {
    if k > 0 {
      InstallmentsProduct(k - 1, pa);
      assert k as real * pa == (k - 1) as real * pa + pa;
    }
  }

  /** Without a goal, with a non-negative rate and a payment above the
      interest due, every payment but the last is the full amount pa and the
      last is what remains, so the principal retired (c0, the balance at the
      start) plus the interest lies in ((k - 1) pa, k pa] after k payments. */
  lemma {:induction false} SolveFromPaidInFull(mr: real, pa: real, c: real, ic: real, n: nat, fuel: nat, c0: real)
    requires mr >= 0.0 && c >= 0.0 && pa - mr * c > 0.0
    requires c + Installments(n, pa) == c0 + ic
    requires SolveFrom(mr, pa, None, c, ic, n, fuel).Some?
    ensures var s := SolveFrom(mr, pa, None, c, ic, n, fuel).value;
      Installments(s.payments, pa) - pa < c0 + s.interest <= Installments(s.payments, pa)
    decreases fuel
  {
    if c != 0.0 {
      var ip := mr * c;
      var pmt := pa - ip;
      ScaleMonotone(mr, 0.0, c);
      if pmt >= c {
        assert SolveFrom(mr, pa, None, c, ic, n, fuel) == Some(Solution(0.0, ic + ip, n + 1));
      } else {
        var c' := c - pmt;
        assert SolveFrom(mr, pa, None, c, ic, n, fuel) == SolveFrom(mr, pa, None, c', ic + ip, n + 1, fuel - 1);
        ScaleMonotone(mr, c', c);
        SolveFromPaidInFull(mr, pa, c', ic + ip, n + 1, fuel - 1, c0);
      }
    }
  }

  lemma ScaleMonotone(m: real, a: real, b: real)
    requires m >= 0.0 && a <= b
    ensures m * a <= m * b
  {
    assert m * b - m * a == m * (b - a);
  }

  /** solve_for_interest and solve_for_np agree with the payments: when the
      rate is non-negative and the payment covers the interest due, the
      balance plus the interest reported is more than n - 1 payments and at
      most n, for the n payments reported. */
  lemma SolveForInterestBounded(l: Loan, fuel: nat)
    requires l.rate >= 0 && CurrentBal(l) >= 0 && CanPayoff(l)
    requires fuel as real * Margin(l) >= CurrentBal(l) as real
    ensures SolveForInterest(l, fuel).Some? && SolveForNp(l, fuel).Some?
    ensures var i, n := SolveForInterest(l, fuel).value, SolveForNp(l, fuel).value;
      Installments(n, l.payment as real) - l.payment as real < CurrentBal(l) as real + i <= Installments(n, l.payment as real)
  {
    var b := CurrentBal(l) as real;
    RecursiveSolvePaysOff(l, fuel);
    SolveFromPaidInFull(MonthlyRate(l), l.payment as real, b, 0.0, 0, fuel, b);
  }

  /** solve_for_interest: the interest recursive_solve accumulates. */
  function SolveForInterest(l: Loan, fuel: nat): (r: Option<real>)
    ensures !CanPayoff(l) ==> r == Some(0.0)
  {
    match RecursiveSolve(l, None, fuel)
    case Some(s) => Some(s.interest)
    case None => None
  }

  /** solve_for_np: the number of payments recursive_solve makes. */
  function SolveForNp(l: Loan, fuel: nat): (r: Option<nat>)
    ensures !CanPayoff(l) ==> r == Some(0)
  {
    match RecursiveSolve(l, None, fuel)
    case Some(s) => Some(s.payments)
    case None => None
  }

  // ---------------------------------------------------------------------
  // min_payment: the annuity payment over the term
  // ---------------------------------------------------------------------

  function Pow(x: real, n: nat): real {
    if n == 0 then 1.0 else x * Pow(x, n - 1)
  }

  lemma {:induction false} PowPositive(x: real, n: nat)
    requires x > 0.0
    ensures Pow(x, n) > 0.0
  {
    if n > 0 {
      PowPositive(x, n - 1);
    }
  }

  lemma {:induction false} PowNonZero(x: real, n: nat)
    requires x != 0.0
    ensures Pow(x, n) != 0.0
  {
    if n > 0 {
      PowNonZero(x, n - 1);
    }
  }

  lemma {:induction false} PowOfOne(n: nat)
    ensures Pow(1.0, n) == 1.0
  {
    if n > 0 {
      PowOfOne(n - 1);
    }
  }

  /** The value of a Decimal power: a finite number, or the positive
      infinity Decimal gives, without a signal, for zero to a negative power. */
  datatype Power = Finite(v: real) | PosInfinity

  /** Decimal x ** n for an integer exponent. Zero to the power zero is
      undefined; zero to a negative power is infinite. */
  function IntPow(x: real, n: int): (r: Result<Power>)
    ensures r.Failure? <==> x == 0.0 && n == 0
    ensures r.Failure? ==> r.error == InvalidOperation
    ensures r == Success(PosInfinity) <==> x == 0.0 && n < 0
    ensures r.Success? && n >= 0 ==> r.value == Finite(Pow(x, n))
    ensures r.Success? && r.value.Finite? && n < 0 ==> r.value.v * Pow(x, -n) == 1.0
  {
    if x == 0.0 && n == 0 then Failure(InvalidOperation)
    else if n >= 0 then Success(Finite(Pow(x, n)))
    else if x == 0.0 then Success(PosInfinity)
    else
      PowNonZero(x, -n);
      Success(Finite(1.0 / Pow(x, -n)))
  }

  /** min_payment: start balance / (((1+r)^n - 1) / (r (1+r)^n)), in cents,
      unrounded. A zero rate makes the discount factor 0/0; a monthly rate
      of -1 with a negative term makes it Infinity / -Infinity. */
  function MinPayment(l: Loan): (r: Result<real>)
    ensures l.rate == 0 ==> r == Failure(InvalidOperation)
    ensures l.rate == -120000 && l.term < 0 ==> r == Failure(InvalidOperation)
    ensures r.Failure? ==> r.error == InvalidOperation || r.error == ZeroDivision
  {
    var mr := MonthlyRate(l);
    var p :- IntPow(1.0 + mr, l.term);
    match p
    case PosInfinity =>
      // 1 + r is zero, so r is -1: (Infinity - 1) / (-1 * Infinity)
      Failure(InvalidOperation)
    case Finite(g) =>
      var den := mr * g;
      if den == 0.0 then
        PowOfOne(if l.term >= 0 then l.term else -l.term);
        Failure(if g - 1.0 == 0.0 then InvalidOperation else ZeroDivision)
      else
        var df := (g - 1.0) / den;
        if df == 0.0 then Failure(if l.startBalance == 0 then InvalidOperation else ZeroDivision)
        else Success(l.startBalance as real / df)
  }

  /** The unrounded balance after k months of paying p at monthly rate r. */
  function Amortise(b: real, r: real, p: real, k: nat): real
    decreases k
  {
    if k == 0 then b else Amortise(b * (1.0 + r) - p, r, p, k - 1)
  }

  /** 1 + x + ... + x^(k-1) */
  function GeomSum(x: real, k: nat): real {
    if k == 0 then 0.0 else GeomSum(x, k - 1) + Pow(x, k - 1)
  }

  lemma {:induction false} GeomSumClosed(x: real, k: nat)
    ensures (x - 1.0) * GeomSum(x, k) == Pow(x, k) - 1.0
  {
    if k > 0 {
      GeomSumClosed(x, k - 1);
      var s, p := GeomSum(x, k - 1), Pow(x, k - 1);
      calc {
        (x - 1.0) * GeomSum(x, k);
        (x - 1.0) * (s + p);
        (x - 1.0) * s + (x - 1.0) * p;
        (p - 1.0) + (x * p - p);
        x * p - 1.0;
      }
    }
  }

  lemma {:induction false} AmortiseClosed(b: real, r: real, p: real, k: nat)
    ensures Amortise(b, r, p, k) == b * Pow(1.0 + r, k) - p * GeomSum(1.0 + r, k)
    decreases k
  {
    if k > 0 {
      var b' := b * (1.0 + r) - p;
      AmortiseClosed(b', r, p, k - 1);
      var g, s := Pow(1.0 + r, k - 1), GeomSum(1.0 + r, k - 1);
      assert Amortise(b, r, p, k) == b' * g - p * s;
      PowUnfold(1.0 + r, k);
      assert GeomSum(1.0 + r, k) == s + g;
      AmortiseStepAlgebra(b, r, p, g, s);
    }
  }

  lemma PowUnfold(x: real, k: nat)
    requires k > 0
    ensures Pow(x, k) == x * Pow(x, k - 1)
  {
  }

  lemma AmortiseStepAlgebra(b: real, r: real, p: real, g: real, s: real)
    ensures (b * (1.0 + r) - p) * g - p * s == b * ((1.0 + r) * g) - p * (s + g)
  {
  }

  /** The minimum payment retires the start balance in exactly `term`
      months when interest is charged on the unrounded balance. */
  lemma MinPaymentAmortises(l: Loan)
    requires l.term > 0 && MinPayment(l).Success?
    ensures Amortise(l.startBalance as real, MonthlyRate(l), MinPayment(l).value, l.term) == 0.0
  {
    var mr := MonthlyRate(l);
    var b := l.startBalance as real;
    var g := Pow(1.0 + mr, l.term);
    var p := MinPayment(l).value;
    assert mr * g != 0.0;
    var df := (g - 1.0) / (mr * g);
    assert df != 0.0 && p == b / df;
    GeomSumClosed(1.0 + mr, l.term);
    AnnuityIdentity(b, mr, g, GeomSum(1.0 + mr, l.term), df, p);
    AmortiseClosed(b, mr, p, l.term);
  }

  /** The algebra behind MinPaymentAmortises: with r s = g - 1 and
      p = b / ((g - 1) / (r g)), the payments' growth p s matches the
      balance's growth b g. */
  lemma AnnuityIdentity(b: real, r: real, g: real, s: real, df: real, p: real)
    requires r * g != 0.0 && df == (g - 1.0) / (r * g) && df != 0.0 && p == b / df
    requires r * s == g - 1.0
    ensures p * s == b * g
  {
    assert df * (r * g) == g - 1.0;
    assert r * (df * g) == r * s;
    assert r != 0.0;
    assert df * g == s;
    assert p * df == b;
    calc {
      p * s;
      p * (df * g);
      (p * df) * g;
      b * g;
    }
  }

  // ---------------------------------------------------------------------
  // Ledger analytics
  // ---------------------------------------------------------------------

  function PrincipalOf(x: Record): int {
    x.principal
  }

  function InterestOf(x: Record): int {
    x.interest
  }

  function PrincipalPaid(l: Loan): int {
    Seqs.SumOf(l.history, PrincipalOf)
  }

  function InterestPaid(l: Loan): int {
    Seqs.SumOf(l.history, InterestOf)
  }

  function TotalPaid(l: Loan): int {
    InterestPaid(l) + PrincipalPaid(l)
  }

  /** Selector of get_p_to_i: None, 'p' or 'i'. */
  datatype Share = Ratio | PrincipalPercent | InterestPercent

  /** get_p_to_i, in hundredths. Nothing paid reads as 0; a ratio with no
      interest paid divides by zero. */
  function PToI(l: Loan, c: Share): (r: Result<int>)
    ensures TotalPaid(l) == 0 ==> r == Success(0)
    ensures TotalPaid(l) != 0 && c != Ratio ==> r.Success?
    ensures r.Failure? <==> TotalPaid(l) != 0 && c == Ratio && InterestPaid(l) == 0
  {
    var p, i, t := PrincipalPaid(l) as real, InterestPaid(l) as real, TotalPaid(l) as real;
    if t == 0.0 then Success(0)
    else match c
      case Ratio => if i == 0.0 then Failure(ZeroDivision) else Success(Dec(p / i))
      case PrincipalPercent => Success(Dec(p / t * 100.0))
      case InterestPercent => Success(Dec(i / t * 100.0))
  }

  /** The principal and interest percentages add up to 100%, to within the
      one hundredth their two roundings can lose or gain. */
  lemma SharesAddUp(l: Loan)
    requires TotalPaid(l) != 0
    ensures 9999 <= PToI(l, PrincipalPercent).value + PToI(l, InterestPercent).value <= 10001
  {
    var p, i, t := PrincipalPaid(l) as real, InterestPaid(l) as real, TotalPaid(l) as real;
    PercentsAddUp(p, i, t);
    DecPairSum(p / t * 100.0, i / t * 100.0);
  }

  lemma PercentsAddUp(p: real, i: real, t: real)
    requires t != 0.0 && p + i == t
    ensures p / t * 100.0 + i / t * 100.0 == 100.0
  {
    assert p / t + i / t == (p + i) / t == 1.0;
  }

  /** Two percentages that add up to 100 round to hundredths that add up
      to 100, give or take one hundredth. */
  lemma DecPairSum(a: real, b: real)
    requires a + b == 100.0
    ensures 9999 <= Dec(a) + Dec(b) <= 10001
  {
    var x, y := Dec(a) as real, Dec(b) as real;
    assert -0.005 <= x / 100.0 - a <= 0.005;
    assert -0.005 <= y / 100.0 - b <= 0.005;
    assert 9999.0 <= x + y <= 10001.0;
  }

  /** get_percent_principal: unlike get_p_to_i it has no zero guard, so
      nothing paid is Decimal 0/0. */
  function PercentPrincipal(l: Loan): (r: Result<int>)
    ensures TotalPaid(l) == 0 <==> r.Failure?
    ensures r.Failure? ==> (r.error == InvalidOperation <==> PrincipalPaid(l) == 0)
    ensures r.Success? ==> r == PToI(l, PrincipalPercent)
  {
    if TotalPaid(l) == 0 then Failure(if PrincipalPaid(l) == 0 then InvalidOperation else ZeroDivision)
    else Success(Dec(PrincipalPaid(l) as real / TotalPaid(l) as real * 100.0))
  }

  /** get_principal_history / get_interest_history: running sums over the
      ledger, one per record. */
  function PrincipalHistory(l: Loan): (r: seq<int>)
    ensures |r| == |l.history| && r[|r| - 1] == PrincipalPaid(l)
    ensures Valid(l) ==> r[0] == 0
    ensures forall i :: 0 < i < |r| ==> r[i] == r[i - 1] + l.history[i].principal
  {
    Seqs.PrefixSumsProperties(l.history, PrincipalOf);
    Seqs.PrefixSums(l.history, PrincipalOf)
  }

  function InterestHistory(l: Loan): (r: seq<int>)
    ensures |r| == |l.history| && r[|r| - 1] == InterestPaid(l)
    ensures Valid(l) ==> r[0] == 0
    ensures forall i :: 0 < i < |r| ==> r[i] == r[i - 1] + l.history[i].interest
  {
    Seqs.PrefixSumsProperties(l.history, InterestOf);
    Seqs.PrefixSums(l.history, InterestOf)
  }

  /** get_total_payment_history */
  function TotalPaymentHistory(l: Loan): (r: seq<int>)
    ensures |r| == |l.history| && r[|r| - 1] == TotalPaid(l)
    ensures Valid(l) ==> r[0] == 0
    ensures forall i :: 0 < i < |r| ==>
      r[i] == r[i - 1] + l.history[i].principal + l.history[i].interest
  {
    var ph, ih := PrincipalHistory(l), InterestHistory(l);
    seq(|l.history|, i requires 0 <= i < |l.history| => ph[i] + ih[i])
  }

  /** The share of one payment that went to principal, in percent. */
  function PrincipalPercentOf(x: Record): real
    requires x.principal == 0 || x.principal + x.interest != 0
  {
    if x.principal != 0 then x.principal as real / (x.principal + x.interest) as real * 100.0 else 0.0
  }

  lemma PrincipalPercentBounded(x: Record)
    requires x.principal >= 0 && x.interest >= 0
    ensures 0.0 <= PrincipalPercentOf(x) <= 100.0
  {
    if x.principal != 0 {
      var p, t := x.principal as real, (x.principal + x.interest) as real;
      assert p / t <= 1.0;
    }
  }

  predicate Divisible(x: Record) {
    x.principal == 0 || x.principal + x.interest != 0
  }

  /** get_p_to_i_over_time: for each payment, the percentage of it that went
      to principal (0 when no principal was paid), unrounded. */
  function PercentPrincipalOverTime(l: Loan): (r: Result<seq<real>>)
    ensures r.Success? ==> |r.value| == |l.history| - 1
    ensures r.Success? ==> forall i :: 0 <= i < |r.value| ==>
      Divisible(l.history[i + 1]) && r.value[i] == PrincipalPercentOf(l.history[i + 1])
    ensures r.Failure? <==> exists i :: 1 <= i < |l.history| && !Divisible(l.history[i])
  {
    var h := l.history;
    if exists i :: 1 <= i < |h| && !Divisible(h[i]) then Failure(ZeroDivision)
    else Success(seq(|h| - 1, i requires 0 <= i < |h| - 1 => PrincipalPercentOf(h[i + 1])))
  }

  /** With non-negative ledger amounts every percentage is defined and lies
      between 0 and 100. */
  lemma PercentPrincipalOverTimeBounded(l: Loan)
    requires forall i :: 1 <= i < |l.history| ==> l.history[i].principal >= 0 && l.history[i].interest >= 0
    ensures PercentPrincipalOverTime(l).Success?
    ensures forall v :: v in PercentPrincipalOverTime(l).value ==> 0.0 <= v <= 100.0
  {
    var r := PercentPrincipalOverTime(l).value;
    forall i | 0 <= i < |r|
      ensures 0.0 <= r[i] <= 100.0
    {
      PrincipalPercentBounded(l.history[i + 1]);
    }
  }
}

=== FILE: loan_queue.dfy ===
/** The LoanQueue class: an ordered list of loans sharing one monthly budget,
    with the preparation steps the strategies are built from (ordering,
    minimum payments, distribution of the remainder) and the aggregate
    analytics the strategies are compared by. The strategy driver itself is
    in module Strategies. */
module LoanQueues {
  import opened Outcomes
  import opened Money
  import Seqs
  import StableSort
  import Loans

  /** loans: the queue's order is its priority; explicitBudget: the budget
      passed in (cents), if any. */
  datatype Queue = Queue(loans: seq<Loans.Loan>, explicitBudget: Option<int>, title: string)

  const DefaultTitle: string := "My Queue"

  function PaymentOf(l: Loans.Loan): int {
    l.payment
  }

  function SumPayments(loans: seq<Loans.Loan>): int {
    Seqs.SumOf(loans, PaymentOf)
  }

  /** The budget property: the explicit budget, or else the rounded sum of
      the loans' current payments. */
  function Budget(q: Queue): (r: int)
    ensures q.explicitBudget.Some? ==> r == q.explicitBudget.value
    ensures q.explicitBudget.None? ==> r == SumPayments(q.loans)
  {
    RoundOfInt(SumPayments(q.loans));
    if q.explicitBudget.Some? then q.explicitBudget.value else Round(SumPayments(q.loans) as real)
  }

  /** LoanQueue(loans, budget, title), budget in dollars. */
  function NewQueue(loans: seq<Loans.Loan>, budget: Option<real>, title: Option<string>): (q: Queue)
    ensures q.loans == loans
    ensures title.None? ==> q.title == DefaultTitle
    ensures title.Some? ==> q.title == title.value
    ensures budget.Some? ==> q.explicitBudget == Some(Dec(budget.value)) && Budget(q) == Dec(budget.value)
    ensures budget.None? ==> Budget(q) == SumPayments(loans)
  {
    RoundOfInt(SumPayments(loans));
    Queue(loans, if budget.Some? then Some(Dec(budget.value)) else None,
          if title.Some? then title.value else DefaultTitle)
  }

  // ---------------------------------------------------------------------
  // add_loan
  // ---------------------------------------------------------------------

  /** A Python argument to add_loan: a Loan, a (possibly nested) list, or
      anything else. */
  datatype Item = LoanItem(loan: Loans.Loan) | ListItem(items: seq<Item>) | OtherItem

  /** The non-list values of an argument, in the order add_loan visits them. */
  function Leaves(it: Item): (r: seq<Item>)
    decreases it
    ensures forall x :: x in r ==> !x.ListItem?
  {
    match it
    case ListItem(xs) => LeavesOf(xs)
    case _ => [it]
  }

  function LeavesOf(xs: seq<Item>): (r: seq<Item>)
    decreases xs
    ensures forall x :: x in r ==> !x.ListItem?
  {
    if |xs| == 0 then [] else Leaves(xs[0]) + LeavesOf(xs[1..])
  }

  /** The loans visited before the first value that is not a loan. */
  function LoansBeforeOther(ls: seq<Item>): seq<Loans.Loan> {
    if |ls| == 0 then []
    else match ls[0]
      case LoanItem(l) => [l] + LoansBeforeOther(ls[1..])
      case _ => []
  }

  lemma {:induction false} LoansBeforeOtherConcat(a: seq<Item>, b: seq<Item>)
    requires forall x :: x in a ==> !x.ListItem?
    ensures LoansBeforeOther(a + b)
         == LoansBeforeOther(a) + (if OtherItem in a then [] else LoansBeforeOther(b))
  {
    if |a| == 0 {
      assert a + b == b;
    } else {
      var x, rest := a[0], a[1..];
      assert a == [x] + rest;
      assert a + b == [x] + (rest + b);
      LoansBeforeOtherCons(x, rest);
      LoansBeforeOtherCons(x, rest + b);
      if x.LoanItem? {
        assert forall y :: y in rest ==> y in a;
        assert OtherItem in a <==> OtherItem in rest;
        LoansBeforeOtherConcat(rest, b);
        var tail := if OtherItem in a then [] else LoansBeforeOther(b);
        AppendTwice([x.loan], LoansBeforeOther(rest), tail);
      } else {
        assert x in a;
      }
    }
  }

  lemma LoansBeforeOtherCons(x: Item, rest: seq<Item>)
    ensures LoansBeforeOther([x] + rest)
         == if x.LoanItem? then [x.loan] + LoansBeforeOther(rest) else []
  {
    assert ([x] + rest)[0] == x && ([x] + rest)[1..] == rest;
  }

  /** The outcome of add_loan: the queue as it stands afterwards, and
      whether it returned rather than raised TypeError. */
  datatype Added = Added(queue: Queue, ok: bool)

  /** add_loan: a loan is appended; a list is added element by element,
      recursively; anything else raises TypeError, after the loans before it
      have already been appended. */
  function AddLoan(q: Queue, it: Item): (r: Added)
    decreases it
    ensures r.queue.loans == q.loans + LoansBeforeOther(Leaves(it))
    ensures r.ok <==> OtherItem !in Leaves(it)
    ensures r.queue.explicitBudget == q.explicitBudget && r.queue.title == q.title
  {
    match it
    case LoanItem(l) => Added(q.(loans := q.loans + [l]), true)
    case OtherItem => Added(q, false)
    case ListItem(xs) => AddEach(q, xs)
  }

  function AddEach(q: Queue, xs: seq<Item>): (r: Added)
    decreases xs
    ensures r.queue.loans == q.loans + LoansBeforeOther(LeavesOf(xs))
    ensures r.ok <==> OtherItem !in LeavesOf(xs)
    ensures r.queue.explicitBudget == q.explicitBudget && r.queue.title == q.title
  {
    if |xs| == 0 then Added(q, true)
    else
      var a := AddLoan(q, xs[0]);
      LoansBeforeOtherConcat(Leaves(xs[0]), LeavesOf(xs[1..]));
      if !a.ok then a
      else
        var r := AddEach(a.queue, xs[1..]);
        AppendTwice(q.loans, LoansBeforeOther(Leaves(xs[0])), LoansBeforeOther(LeavesOf(xs[1..])));
        r
  }

  lemma AppendTwice<T>(a: seq<T>, b: seq<T>, c: seq<T>)
    ensures a + b + c == a + (b + c)
  {
  }

  // ---------------------------------------------------------------------
  // branch
  // ---------------------------------------------------------------------

  /** branch: a queue of branched loans, with the budget fixed at the
      value it has now. */
  function Branch(q: Queue): (r: Queue)
    ensures |r.loans| == |q.loans|
    ensures forall i :: 0 <= i < |q.loans| ==> r.loans[i] == Loans.Branch(q.loans[i])
    ensures r.explicitBudget == Some(Budget(q)) && Budget(r) == Budget(q)
    ensures r.title == q.title
  {
    DecOfHundredths(Budget(q));
    NewQueue(Seqs.MapSeq(q.loans, Loans.Branch), Some(Budget(q) as real / 100.0), Some(q.title))
  }

  // ---------------------------------------------------------------------
  // prioritize
  // ---------------------------------------------------------------------

  /** The strategy and ordering keys ('avalanche', ..., 'balance'); any other
      string is OtherKey. */
  datatype Key = Avalanche | Blizzard | Snowball | Cascade | IceSlide | ByStartBalance | OtherKey

  /** (int_rate, current_bal) */
  function AvalancheKey(l: Loans.Loan): StableSort.Key {
    (l.rate as real, Loans.CurrentBal(l) as real)
  }

  /** get_int_due() */
  function BlizzardKey(l: Loans.Loan): StableSort.Key {
    (Loans.IntDue(l), 0.0)
  }

  /** current_bal, reversed */
  function SnowballKey(l: Loans.Loan): StableSort.Key {
    (-(Loans.CurrentBal(l) as real), 0.0)
  }

  /** start_balance, reversed */
  function StartBalanceKey(l: Loans.Loan): StableSort.Key {
    (-(l.startBalance as real), 0.0)
  }

  predicate Sorts(key: Key) {
    key == Avalanche || key == Blizzard || key == Snowball || key == ByStartBalance
  }

  function SortKey(key: Key): Loans.Loan -> StableSort.Key
    requires Sorts(key)
  {
    match key
    case Avalanche => AvalancheKey
    case Blizzard => BlizzardKey
    case Snowball => SnowballKey
    case ByStartBalance => StartBalanceKey
  }

  /** prioritize(key): a stable sort of the loans by the key's order; any
      other key leaves the queue as it is. */
  function Prioritize(q: Queue, key: Key): (r: Queue)
    ensures r.explicitBudget == q.explicitBudget && r.title == q.title
    ensures multiset(r.loans) == multiset(q.loans) && |r.loans| == |q.loans|
    ensures key == Avalanche ==> forall i, j :: 0 <= i < j < |r.loans| ==>
      r.loans[i].rate < r.loans[j].rate
      || (r.loans[i].rate == r.loans[j].rate && Loans.CurrentBal(r.loans[i]) <= Loans.CurrentBal(r.loans[j]))
    ensures key == Blizzard ==> forall i, j :: 0 <= i < j < |r.loans| ==>
      Loans.IntDue(r.loans[i]) <= Loans.IntDue(r.loans[j])
    ensures key == Snowball ==> forall i, j :: 0 <= i < j < |r.loans| ==>
      Loans.CurrentBal(r.loans[i]) >= Loans.CurrentBal(r.loans[j])
    ensures key == ByStartBalance ==> forall i, j :: 0 <= i < j < |r.loans| ==>
      r.loans[i].startBalance >= r.loans[j].startBalance
    ensures !Sorts(key) ==> r == q
  {
    if Sorts(key) then
      var sorted := StableSort.SortBy(q.loans, SortKey(key));
      assert StableSort.SortedBy(sorted, SortKey(key));
      q.(loans := sorted)
    else q
  }

  /** Loans the key cannot tell apart keep their relative order. */
  lemma PrioritizeStable(q: Queue, key: Key, k: StableSort.Key)
    requires Sorts(key)
    ensures StableSort.WithKey(Prioritize(q, key).loans, SortKey(key), k)
         == StableSort.WithKey(q.loans, SortKey(key), k)
  {
    StableSort.SortByStable(q.loans, SortKey(key), k);
  }

  /** Prioritizing twice by the same key is prioritizing once. */
  lemma PrioritizeIdempotent(q: Queue, key: Key)
    ensures Prioritize(Prioritize(q, key), key) == Prioritize(q, key)
  {
    if Sorts(key) {
      StableSort.SortByIdempotent(q.loans, SortKey(key));
    }
  }

  // ---------------------------------------------------------------------
  // set_all_payments
  // ---------------------------------------------------------------------

  /** The minimum-payment selectors 'int', 'min' and 'avg'; any other string
      leaves every payment as it is. */
  datatype Minimum = InterestDue | Annuity | EvenSplit | KeepPayment

  /** The payment one loan is given: its interest due, its annuity payment,
      or the budget divided by the queue size, rounded to cents. */
  function MinimumFor(budget: int, size: int, l: Loans.Loan, m: Minimum): (r: Result<int>)
    requires size > 0
    ensures r.Failure? ==> m == Annuity && (r.error == InvalidOperation || r.error == ZeroDivision)
    ensures m == InterestDue ==> r == Success(Loans.RoundedIntDue(l)) && RoundsTo(Loans.IntDue(l), r.value)
    ensures m == Annuity ==> (r.Success? <==> Loans.MinPayment(l).Success?)
    ensures m == Annuity && Loans.MinPayment(l).Success? ==> RoundsTo(Loans.MinPayment(l).value, r.value)
    ensures m == EvenSplit ==> RoundsTo(budget as real / size as real, r.value)
    ensures m == KeepPayment ==> r == Success(l.payment)
  {
    match m
    case InterestDue => Success(Loans.RoundedIntDue(l))
    case Annuity =>
      var p :- Loans.MinPayment(l);
      Success(Round(p))
    case EvenSplit => Success(Round(budget as real / size as real))
    case KeepPayment => Success(l.payment)
  }

  /** Only the payments differ. */
  predicate SamePositions(a: Queue, b: Queue) {
    && |a.loans| == |b.loans|
    && a.explicitBudget == b.explicitBudget && a.title == b.title
    && forall i :: 0 <= i < |a.loans| ==> b.loans[i] == a.loans[i].(payment := b.loans[i].payment)
  }

  /** The loop of set_all_payments from loan i on. The budget property is
      read afresh for every loan, as the Python code does. */
  function AssignFrom(q: Queue, m: Minimum, i: nat): (r: Result<Queue>)
    requires i <= |q.loans|
    decreases |q.loans| - i
    ensures r.Success? ==> SamePositions(q, r.value)
    ensures r.Success? ==> forall j :: 0 <= j < i ==> r.value.loans[j] == q.loans[j]
    ensures r.Success? && (q.explicitBudget.Some? || m != EvenSplit) ==>
      forall j :: i <= j < |q.loans| ==>
        MinimumFor(Budget(q), |q.loans|, q.loans[j], m) == Success(r.value.loans[j].payment)
    ensures m != Annuity ==> r.Success?
    ensures r.Failure? ==> r.error == InvalidOperation || r.error == ZeroDivision
  {
    if i == |q.loans| then Success(q)
    else
      var p :- MinimumFor(Budget(q), |q.loans|, q.loans[i], m);
      AssignFrom(q.(loans := q.loans[i := q.loans[i].(payment := p)]), m, i + 1)
  }

  /** With the 'int' minimum the new payments add up to the total interest
      due. */
  lemma InterestDueTotal(q: Queue, given: Queue)
    requires SamePositions(q, given)
    requires forall j :: 0 <= j < |q.loans| ==>
      MinimumFor(Budget(q), |q.loans|, q.loans[j], InterestDue) == Success(given.loans[j].payment)
    ensures SumPayments(given.loans) == Seqs.SumOf(q.loans, Loans.RoundedIntDue)
  {
    Seqs.SumOfLe(given.loans, q.loans, PaymentOf, Loans.RoundedIntDue);
    Seqs.SumOfLe(q.loans, given.loans, Loans.RoundedIntDue, PaymentOf);
  }

  /** What set_all_payments leaves: the queue with its new payments and the
      budget remaining. */
  datatype Allocation = Allocation(queue: Queue, remainder: int)

  /** set_all_payments: give every loan its minimum and return what is left
      of the budget; ValueError when the minimums exceed the budget. */
  function SetAllPayments(q: Queue, m: Minimum): (r: Result<Allocation>)
    ensures r.Success? ==> SamePositions(q, r.value.queue)
    ensures r.Success? ==> r.value.remainder == Budget(q) - SumPayments(r.value.queue.loans) >= 0
    ensures r.Success? && (q.explicitBudget.Some? || m != EvenSplit) ==>
      forall j :: 0 <= j < |q.loans| ==>
        MinimumFor(Budget(q), |q.loans|, q.loans[j], m) == Success(r.value.queue.loans[j].payment)
    ensures m != Annuity && r.Failure? ==> r.error == ValueError
    ensures m == InterestDue ==> (r.Success? <==> Seqs.SumOf(q.loans, Loans.RoundedIntDue) <= Budget(q))
    ensures r == Failure(ValueError) <==>
      AssignFrom(q, m, 0).Success? && SumPayments(AssignFrom(q, m, 0).value.loans) > Budget(q)
  {
    var given :- AssignFrom(q, m, 0);
    var b := Budget(q) - SumPayments(given.loans);
    if m == InterestDue then
      InterestDueTotal(q, given);
      if b < 0 then Failure(ValueError) else Success(Allocation(given, b))
    else
      if b < 0 then Failure(ValueError) else Success(Allocation(given, b))
  }

  // ---------------------------------------------------------------------
  // distribute and spread
  // ---------------------------------------------------------------------

  predicate Spreads(key: Key) {
    key == Cascade || key == IceSlide
  }

  /** A loan's weight in a spread: its rate for cascade, its interest due
      for ice_slide. */
  function Weight(key: Key, l: Loans.Loan): real {
    if key == Cascade then l.rate as real else Loans.IntDue(l)
  }

  function Weights(key: Key, loans: seq<Loans.Loan>): (ws: seq<real>)
    ensures |ws| == |loans|
    ensures forall i :: 0 <= i < |loans| ==> ws[i] == Weight(key, loans[i])
  {
    seq(|loans|, i requires 0 <= i < |loans| => Weight(key, loans[i]))
  }

  /** [(w / total) * r for w in ws] */
  function Extras(ws: seq<real>, total: real, r: int): (ex: seq<real>)
    requires total != 0.0
    ensures |ex| == |ws|
  {
    seq(|ws|, i requires 0 <= i < |ws| => ws[i] / total * r as real)
  }

  /** Each extra is its weight scaled by remainder / total. */
  lemma ExtrasScale(ws: seq<real>, total: real, r: int)
    requires total != 0.0
    ensures forall i :: 0 <= i < |ws| ==> Extras(ws, total, r)[i] == ws[i] * (r as real / total)
  {
    var ex := Extras(ws, total, r);
    forall i | 0 <= i < |ws|
      ensures ex[i] == ws[i] * (r as real / total)
    {
      assert ex[i] == ws[i] / total * r as real;
    }
  }

  /** The unrounded extras of a spread add up to the remainder exactly. */
  lemma ExtrasSumToRemainder(ws: seq<real>, r: int)
    requires Seqs.RealSum(ws) != 0.0
    ensures Seqs.RealSum(Extras(ws, Seqs.RealSum(ws), r)) == r as real
  {
    var total := Seqs.RealSum(ws);
    var c := r as real / total;
    ExtrasScale(ws, total, r);
    Seqs.RealSumScale(ws, Extras(ws, total, r), c);
    assert total * c == r as real;
  }

  /** Each extra is the remainder's share in proportion to the weight. */
  lemma ExtrasProportional(ws: seq<real>, r: int, i: int)
    requires Seqs.RealSum(ws) != 0.0 && 0 <= i < |ws|
    ensures Extras(ws, Seqs.RealSum(ws), r)[i] * Seqs.RealSum(ws) == ws[i] * r as real
  {
    var total := Seqs.RealSum(ws);
    var w, x := ws[i], r as real;
    assert Extras(ws, total, r)[i] == w / total * x;
    assert w / total * x * total == w * x;
  }

  /** Non-negative weights and remainder give non-negative extras. */
  lemma ExtrasNonNegative(ws: seq<real>, r: int)
    requires Seqs.RealSum(ws) != 0.0 && r >= 0
    requires forall i :: 0 <= i < |ws| ==> ws[i] >= 0.0
    ensures forall i :: 0 <= i < |ws| ==> Extras(ws, Seqs.RealSum(ws), r)[i] >= 0.0
  {
    var total := Seqs.RealSum(ws);
    NonNegativeSum(ws);
    ExtrasScale(ws, total, r);
    var c := r as real / total;
    assert c >= 0.0;
    forall i | 0 <= i < |ws|
      ensures ws[i] * c >= 0.0
    {
    }
  }

  lemma {:induction false} NonNegativeSum(ws: seq<real>)
    requires forall i :: 0 <= i < |ws| ==> ws[i] >= 0.0
    ensures Seqs.RealSum(ws) >= 0.0
  {
    if |ws| > 0 {
      NonNegativeSum(ws[1..]);
    }
  }

  /** spread: add to every payment its share of the remainder, rounding
      each sum to cents. A key that assigns no weights fails on the first
      loan; weights that add up to 0 divide by zero, the first loan's weight
      deciding which Decimal error is raised. */
  function Spread(q: Queue, key: Key, rem: int): (r: Result<Queue>)
    ensures |q.loans| == 0 ==> r == Success(q)
    ensures !Spreads(key) && |q.loans| > 0 ==> r == Failure(UnboundName)
    ensures Spreads(key) && |q.loans| > 0 ==>
      (r.Failure? <==> Seqs.RealSum(Weights(key, q.loans)) == 0.0)
    ensures Spreads(key) && r.Failure? ==>
      (r.error == InvalidOperation <==> Weight(key, q.loans[0]) == 0.0)
    ensures r.Success? ==> SamePositions(q, r.value)
    ensures r.Success? && |q.loans| > 0 ==>
      var ws := Weights(key, q.loans);
      forall i :: 0 <= i < |q.loans| ==>
           r.value.loans[i].payment
             == Round(q.loans[i].payment as real + Extras(ws, Seqs.RealSum(ws), rem)[i])
  {
    if |q.loans| == 0 then Success(q)
    else if !Spreads(key) then Failure(UnboundName)
    else
      var ws := Weights(key, q.loans);
      var total := Seqs.RealSum(ws);
      if total == 0.0 then Failure(if ws[0] == 0.0 then InvalidOperation else ZeroDivision)
      else
        var ex := Extras(ws, total, rem);
        Success(q.(loans := seq(|q.loans|, i requires 0 <= i < |q.loans| =>
          q.loans[i].(payment := Round(q.loans[i].payment as real + ex[i])))))
  }

  /** distribute: the spread strategies share the remainder out; every other
      key adds all of it to the last loan, the target. */
  function Distribute(q: Queue, key: Key, rem: int): (r: Result<Queue>)
    ensures Spreads(key) ==> r == Spread(q, key, rem)
    ensures r.Success? ==> SamePositions(q, r.value)
    ensures !Spreads(key) ==> (r.Success? <==> |q.loans| > 0)
    ensures !Spreads(key) && r.Failure? ==> r.error == IndexError
    ensures !Spreads(key) && r.Success? ==>
      && r.value.loans[|q.loans| - 1].payment == q.loans[|q.loans| - 1].payment + rem
      && forall j :: 0 <= j < |q.loans| - 1 ==> r.value.loans[j] == q.loans[j]
  {
    if Spreads(key) then Spread(q, key, rem)
    else if |q.loans| == 0 then Failure(IndexError)
    else
      var n := |q.loans| - 1;
      var l := q.loans[n];
      RoundOfInt(l.payment + rem);
      Success(q.(loans := q.loans[n := l.(payment := Round(l.payment as real + rem as real))]))
  }

  /** A targeted distribution hands out exactly the remainder. */
  lemma TargetSpendsRemainder(q: Queue, key: Key, rem: int)
    requires !Spreads(key) && |q.loans| > 0
    ensures SumPayments(Distribute(q, key, rem).value.loans) == SumPayments(q.loans) + rem
  {
    var n := |q.loans| - 1;
    var l := q.loans[n];
    Seqs.SumOfUpdate(q.loans, n, l.(payment := l.payment + rem), PaymentOf);
  }

  /** Minimums and a targeted distribution together spend exactly the
      budget. */
  lemma TargetSpendsBudget(q: Queue, key: Key, m: Minimum)
    requires !Spreads(key) && |q.loans| > 0 && SetAllPayments(q, m).Success?
    ensures var alloc := SetAllPayments(q, m).value;
      SumPayments(Distribute(alloc.queue, key, alloc.remainder).value.loans) == Budget(q)
  {
    var alloc := SetAllPayments(q, m).value;
    TargetSpendsRemainder(alloc.queue, key, alloc.remainder);
  }

  /** A spread over some loans hands out the remainder to within half a
      cent per loan, each new payment being rounded on its own; over no
      loans it hands out nothing. */
  lemma SpreadSpendsRemainder(q: Queue, key: Key, rem: int)
    requires Spread(q, key, rem).Success?
    ensures |q.loans| == 0 ==> SumPayments(Spread(q, key, rem).value.loans) == 0
    ensures |q.loans| > 0 ==> var paid := SumPayments(Spread(q, key, rem).value.loans) as real;
      var target := (SumPayments(q.loans) + rem) as real;
      var slack := |q.loans| as real / 2.0;
      target - slack <= paid <= target + slack
  {
    var paid := Spread(q, key, rem).value.loans;
    if |q.loans| > 0 {
      var ws := Weights(key, q.loans);
      var ex := Extras(ws, Seqs.RealSum(ws), rem);
      assert |paid| == |q.loans| && |ex| == |q.loans|;
      assert forall i :: 0 <= i < |q.loans| ==> paid[i].payment == Round(q.loans[i].payment as real + ex[i]);
      ExtrasSumToRemainder(ws, rem);
      RoundedSumNear(q.loans, paid, ex);
      assert SumPayments(q.loans) as real + Seqs.RealSum(ex) == (SumPayments(q.loans) + rem) as real;
    }
  }

  /** Minimums and a spread together spend the budget to within half a
      cent per loan. */
  lemma SpreadSpendsBudget(q: Queue, key: Key, m: Minimum)
    requires |q.loans| > 0 && SetAllPayments(q, m).Success?
    requires var alloc := SetAllPayments(q, m).value; Spread(alloc.queue, key, alloc.remainder).Success?
    ensures var alloc := SetAllPayments(q, m).value;
      var paid := SumPayments(Spread(alloc.queue, key, alloc.remainder).value.loans) as real;
      Budget(q) as real - |q.loans| as real / 2.0 <= paid <= Budget(q) as real + |q.loans| as real / 2.0
  {
    var alloc := SetAllPayments(q, m).value;
    SpreadSpendsRemainder(alloc.queue, key, alloc.remainder);
  }

  lemma {:induction false} RoundedSumNear(loans: seq<Loans.Loan>, paid: seq<Loans.Loan>, ex: seq<real>)
    requires |paid| == |loans| && |ex| == |loans|
    requires forall i :: 0 <= i < |loans| ==> paid[i].payment == Round(loans[i].payment as real + ex[i])
    ensures var target := SumPayments(loans) as real + Seqs.RealSum(ex);
      target - |loans| as real / 2.0 <= SumPayments(paid) as real <= target + |loans| as real / 2.0
  {
    if |loans| > 0 {
      RoundedSumNear(loans[1..], paid[1..], ex[1..]);
      var x := loans[0].payment as real + ex[0];
      assert x - 0.5 <= paid[0].payment as real <= x + 0.5;
    }
  }

  /** One payment on each loan of a list, in order. */
  function PayEach(loans: seq<Loans.Loan>): (r: seq<Loans.Loan>)
    ensures |r| == |loans|
  {
    if |loans| == 0 then [] else [Loans.PayMonth(loans[0])] + PayEach(loans[1..])
  }

  /** One payment on every loan, in queue order. */
  function PayAll(q: Queue): (r: Queue)
    ensures |r.loans| == |q.loans| && r.explicitBudget == q.explicitBudget && r.title == q.title
  {
    q.(loans := PayEach(q.loans))
  }

  /** The loan at each position is paid exactly once. */
  lemma {:induction false} PayEachAt(loans: seq<Loans.Loan>)
    ensures forall i :: 0 <= i < |loans| ==> PayEach(loans)[i] == Loans.PayMonth(loans[i])
  {
    if |loans| > 0 {
      PayEachAt(loans[1..]);
    }
  }

  /** payoff: pay every loan off in place (with the corrected loan payoff)
      and report whether all of them finished. */
  function Payoff(q: Queue): (r: (Queue, bool))
    ensures |r.0.loans| == |q.loans|
    ensures forall i :: 0 <= i < |q.loans| ==> r.0.loans[i] == Loans.Payoff(q.loans[i])
    ensures r.1 <==> IsComplete(r.0)
    ensures (forall l :: l in q.loans ==> l.rate >= 0 && Loans.Progresses(l)) ==> r.1
  {
    var paid := q.(loans := Seqs.MapSeq(q.loans, Loans.Payoff));
    (paid, IsComplete(paid))
  }

  // ---------------------------------------------------------------------
  // Analytics
  // ---------------------------------------------------------------------

  predicate IsComplete(q: Queue) {
    forall l :: l in q.loans ==> Loans.IsComplete(l)
  }

  /** The largest payment number, 0 for no loans. */
  function MaxPayNo(loans: seq<Loans.Loan>): (r: int)
    ensures forall l :: l in loans ==> Loans.PayNo(l) <= r
    ensures |loans| > 0 ==> exists l :: l in loans && Loans.PayNo(l) == r
  {
    if |loans| == 0 then 0
    else if |loans| == 1 then Loans.PayNo(loans[0])
    else
      var m := MaxPayNo(loans[1..]);
      assert forall l :: l in loans ==> l == loans[0] || l in loans[1..];
      if Loans.PayNo(loans[0]) >= m then Loans.PayNo(loans[0]) else m
  }

  /** get_duration: the longest-running loan's payment count; max() of no
      loans raises ValueError. */
  function Duration(q: Queue): (r: Result<int>)
    ensures r.Failure? <==> |q.loans| == 0
    ensures r.Success? ==> forall l :: l in q.loans ==> Loans.PayNo(l) <= r.value
    ensures r.Success? ==> exists l :: l in q.loans && Loans.PayNo(l) == r.value
  {
    if |q.loans| == 0 then Failure(ValueError) else Success(MaxPayNo(q.loans))
  }

  /** get_num_payments */
  function NumPayments(q: Queue): int {
    Seqs.SumOf(q.loans, Loans.PayNo)
  }

  function PrincipalPaid(q: Queue): int {
    Seqs.SumOf(q.loans, Loans.PrincipalPaid)
  }

  function InterestPaid(q: Queue): int {
    Seqs.SumOf(q.loans, Loans.InterestPaid)
  }

  function TotalPaid(q: Queue): (r: int)
    ensures r == PrincipalPaid(q) + InterestPaid(q)
  {
    TotalPaidSplits(q.loans);
    Seqs.SumOf(q.loans, Loans.TotalPaid)
  }

  lemma {:induction false} TotalPaidSplits(loans: seq<Loans.Loan>)
    ensures Seqs.SumOf(loans, Loans.TotalPaid)
         == Seqs.SumOf(loans, Loans.PrincipalPaid) + Seqs.SumOf(loans, Loans.InterestPaid)
  {
    if |loans| > 0 {
      TotalPaidSplits(loans[1..]);
    }
  }

  /** The duration never exceeds the number of payments when no loan has a
      negative payment number. */
  lemma DurationAtMostPayments(q: Queue)
    requires |q.loans| > 0
    requires forall l :: l in q.loans ==> Loans.PayNo(l) >= 0
    ensures Duration(q).value <= NumPayments(q)
  {
    var k :| 0 <= k < |q.loans| && Loans.PayNo(q.loans[k]) == Duration(q).value;
    SumOfAtLeastTerm(q.loans, k);
  }

  lemma {:induction false} SumOfAtLeastTerm(loans: seq<Loans.Loan>, k: int)
    requires 0 <= k < |loans|
    requires forall l :: l in loans ==> Loans.PayNo(l) >= 0
    ensures Loans.PayNo(loans[k]) <= Seqs.SumOf(loans, Loans.PayNo)
  {
    if k == 0 {
      NonNegativePayNos(loans[1..]);
    } else {
      assert forall l :: l in loans[1..] ==> l in loans;
      SumOfAtLeastTerm(loans[1..], k - 1);
    }
  }

  lemma {:induction false} NonNegativePayNos(loans: seq<Loans.Loan>)
    requires forall l :: l in loans ==> Loans.PayNo(l) >= 0
    ensures Seqs.SumOf(loans, Loans.PayNo) >= 0
  {
    if |loans| > 0 {
      assert forall l :: l in loans[1..] ==> l in loans;
      NonNegativePayNos(loans[1..]);
    }
  }

  /** Each loan's get_p_to_i(), in order; the first failure propagates. */
  function Ratios(loans: seq<Loans.Loan>): (r: Result<seq<int>>)
    ensures r.Success? ==> |r.value| == |loans|
    ensures r.Success? ==> forall i :: 0 <= i < |loans| ==>
      Loans.PToI(loans[i], Loans.Ratio) == Success(r.value[i])
    ensures r.Failure? <==> exists i :: 0 <= i < |loans| && Loans.PToI(loans[i], Loans.Ratio).Failure?
  {
    if |loans| == 0 then Success([])
    else
      var first :- Loans.PToI(loans[0], Loans.Ratio);
      var rest :- Ratios(loans[1..]);
      Success([first] + rest)
  }

  /** get_avg_p_to_i: the mean of the loans' ratios, in hundredths; an empty
      queue divides by zero. */
  function AvgPToI(q: Queue): (r: Result<int>)
    ensures |q.loans| == 0 ==> r == Failure(ZeroDivision)
    ensures |q.loans| > 0 ==> (r.Failure? <==> Ratios(q.loans).Failure?)
    ensures r.Success? ==> RoundsTo(Seqs.SumOf(Ratios(q.loans).value, x => x) as real / |q.loans| as real, r.value)
  {
    if |q.loans| == 0 then Failure(ZeroDivision)
    else match Ratios(q.loans)
      case Failure(e) => Failure(e)
      case Success(rs) => Success(Round(Seqs.SumOf(rs, x => x) as real / |q.loans| as real))
  }

  /** A part of a whole is between 0 and 100 percent. */
  lemma PercentOfWhole(p: real, t: real)
    requires t != 0.0
    ensures 0.0 <= p <= t ==> 0 <= Dec(p / t * 100.0) <= 10000
  {
    if 0.0 <= p <= t {
      assert 0.0 <= p / t <= 1.0;
      RoundMonotone(100.0 * (p / t * 100.0), 10000.0);
      RoundOfInt(10000);
    }
  }

  /** get_percent_principal over the whole queue, in hundredths of a
      percent. The sum over no loans is the integer 0, whose division by 0
      is a ZeroDivisionError; over some loans it is a Decimal. */
  function PercentPrincipal(q: Queue): (r: Result<int>)
    ensures r.Failure? <==> TotalPaid(q) == 0
    ensures r.Failure? ==> (r.error == InvalidOperation <==> |q.loans| > 0 && PrincipalPaid(q) == 0)
    ensures r.Success? && 0 <= PrincipalPaid(q) <= TotalPaid(q) ==> 0 <= r.value <= 10000
  {
    if TotalPaid(q) == 0 then
      Failure(if |q.loans| > 0 && PrincipalPaid(q) == 0 then InvalidOperation else ZeroDivision)
    else
      var p, t := PrincipalPaid(q) as real, TotalPaid(q) as real;
      PercentOfWhole(p, t);
      Success(Dec(p / t * 100.0))
  }
}

=== FILE: loan_queue_compare.dfy ===
/** The LoanQueueCompare class: a grid of solved queues, one per strategy,
    that can be ranked by a goal and read from the top. */
module Comparisons {
  import opened Outcomes
  import StableSort
  import LoanQueues

  /** order_by's goals: 'interest', 'time', 'num_p'; any other string is
      OtherGoal. */
  datatype Goal = ByInterest | ByTime | ByPayments | OtherGoal

  function InterestKey(q: LoanQueues.Queue): StableSort.Key {
    (LoanQueues.InterestPaid(q) as real, 0.0)
  }

  /** get_duration, for a queue that has loans */
  function DurationKey(q: LoanQueues.Queue): StableSort.Key {
    (LoanQueues.MaxPayNo(q.loans) as real, 0.0)
  }

  function PaymentsKey(q: LoanQueues.Queue): StableSort.Key {
    (LoanQueues.NumPayments(q) as real, 0.0)
  }

  predicate Ranks(goal: Goal) {
    goal != OtherGoal
  }

  function GoalKey(goal: Goal): LoanQueues.Queue -> StableSort.Key
    requires Ranks(goal)
  {
    match goal
    case ByInterest => InterestKey
    case ByTime => DurationKey
    case ByPayments => PaymentsKey
  }

  /** The metric a goal ranks by, where it is defined. */
  function Metric(goal: Goal, q: LoanQueues.Queue): int
    requires Ranks(goal)
  {
    match goal
    case ByInterest => LoanQueues.InterestPaid(q)
    case ByTime => LoanQueues.MaxPayNo(q.loans)
    case ByPayments => LoanQueues.NumPayments(q)
  }

  /** order_by: a stable ascending sort of the grid by the goal's metric.
      list.sort computes every key before it moves anything, so one queue
      without loans makes 'time' raise (max() of nothing) and leaves the
      grid as it was. Any other goal leaves the grid alone. */
  function OrderBy(grid: seq<LoanQueues.Queue>, goal: Goal): (r: Result<seq<LoanQueues.Queue>>)
    ensures r.Failure? <==> goal == ByTime && exists q :: q in grid && |q.loans| == 0
    ensures r.Failure? ==> r.error == ValueError
    ensures !Ranks(goal) ==> r == Success(grid)
    ensures r.Success? ==> multiset(r.value) == multiset(grid) && |r.value| == |grid|
    ensures r.Success? && Ranks(goal) ==> forall i, j :: 0 <= i < j < |r.value| ==>
      Metric(goal, r.value[i]) <= Metric(goal, r.value[j])
    ensures r.Success? && goal == ByTime ==> forall i, j :: 0 <= i < j < |r.value| ==>
      |r.value[i].loans| > 0 && |r.value[j].loans| > 0 &&
      LoanQueues.Duration(r.value[i]).value <= LoanQueues.Duration(r.value[j]).value
  {
    if goal == ByTime && exists q :: q in grid && |q.loans| == 0 then Failure(ValueError)
    else if !Ranks(goal) then Success(grid)
    else
      var sorted := StableSort.SortBy(grid, GoalKey(goal));
      SortedByGoal(grid, sorted, goal);
      Success(sorted)
  }

  /** What sorting by a goal's key means for the goal's metric. */
  lemma SortedByGoal(grid: seq<LoanQueues.Queue>, sorted: seq<LoanQueues.Queue>, goal: Goal)
    requires Ranks(goal) && sorted == StableSort.SortBy(grid, GoalKey(goal))
    requires goal == ByTime ==> forall q :: q in grid ==> |q.loans| > 0
    ensures forall i, j :: 0 <= i < j < |sorted| ==> Metric(goal, sorted[i]) <= Metric(goal, sorted[j])
    ensures goal == ByTime ==> forall q :: q in sorted ==> |q.loans| > 0
  {
    var key := GoalKey(goal);
    assert StableSort.SortedBy(sorted, key);
    forall i, j | 0 <= i < j < |sorted|
      ensures Metric(goal, sorted[i]) <= Metric(goal, sorted[j])
    {
      assert StableSort.KeyLe(key(sorted[i]), key(sorted[j]));
    }
    assert forall q :: q in sorted ==> q in multiset(grid);
  }

  /** Queues that tie on the goal's metric keep their order. */
  lemma OrderByStable(grid: seq<LoanQueues.Queue>, goal: Goal, k: StableSort.Key)
    requires Ranks(goal) && OrderBy(grid, goal).Success?
    ensures StableSort.WithKey(OrderBy(grid, goal).value, GoalKey(goal), k)
         == StableSort.WithKey(grid, GoalKey(goal), k)
  {
    StableSort.SortByStable(grid, GoalKey(goal), k);
  }

  /** Ordering an ordered grid again by the same goal changes nothing. */
  lemma OrderByIdempotent(grid: seq<LoanQueues.Queue>, goal: Goal)
    requires OrderBy(grid, goal).Success?
    ensures OrderBy(OrderBy(grid, goal).value, goal) == OrderBy(grid, goal)
  {
    if Ranks(goal) {
      StableSort.SortByIdempotent(grid, GoalKey(goal));
      var sorted := OrderBy(grid, goal).value;
      if goal == ByTime {
        assert forall q :: q in sorted ==> q in multiset(grid);
      }
    }
  }

  /** top: the first queue of the grid; an empty grid raises IndexError. */
  function Top(grid: seq<LoanQueues.Queue>): (r: Result<LoanQueues.Queue>)
    ensures r.Success? <==> |grid| > 0
    ensures r.Failure? ==> r.error == IndexError
    ensures r.Success? ==> r.value in grid
  {
    if |grid| == 0 then Failure(IndexError) else Success(grid[0])
  }

  /** After ordering, the top queue is a best one for the goal: none in the
      grid does better. */
  lemma TopIsBest(grid: seq<LoanQueues.Queue>, goal: Goal)
    requires Ranks(goal) && |grid| > 0 && OrderBy(grid, goal).Success?
    ensures Top(OrderBy(grid, goal).value).Success?
    ensures forall q :: q in grid ==> Metric(goal, Top(OrderBy(grid, goal).value).value) <= Metric(goal, q)
  {
    var sorted := OrderBy(grid, goal).value;
    forall q | q in grid
      ensures Metric(goal, sorted[0]) <= Metric(goal, q)
    {
      assert q in multiset(sorted);
      var j :| 0 <= j < |sorted| && sorted[j] == q;
      if j > 0 {
        assert Metric(goal, sorted[0]) <= Metric(goal, sorted[j]);
      }
    }
  }

  /** all_complete */
  predicate AllComplete(grid: seq<LoanQueues.Queue>) {
    forall q :: q in grid ==> LoanQueues.IsComplete(q)
  }

  /** Reordering the grid does not change whether every queue is complete. */
  lemma OrderByKeepsAllComplete(grid: seq<LoanQueues.Queue>, goal: Goal)
    requires OrderBy(grid, goal).Success?
    ensures AllComplete(OrderBy(grid, goal).value) <==> AllComplete(grid)
  {
    var r := OrderBy(grid, goal).value;
    assert forall q :: q in r <==> q in multiset(grid);
  }
}

=== FILE: money.dfy ===
/** Fixed-point money. Every stored amount is a whole number of hundredths
    (cents for money, hundredths of a percent for rates); intermediate values
    are exact reals and are rounded only when they are stored. */
module Money {

  /** k is x rounded half away from zero: within half a unit of x, and on
      an exact half the one further from zero. */
  predicate RoundsTo(x: real, k: int) {
    && (x >= 0.0 ==> x - 0.5 < k as real <= x + 0.5)
    && (x < 0.0 ==> x - 0.5 <= k as real < x + 0.5)
  }

  /** Rounds x to the nearest integer, exact halves away from zero
      (Decimal's ROUND_HALF_UP). */
  function Round(x: real): (r: int)
    ensures RoundsTo(x, r)
    ensures x >= 0.0 ==> r >= 0
    ensures x <= 0.0 ==> r <= 0
  {
    if x >= 0.0 then (x + 0.5).Floor else -((0.5 - x).Floor)
  }

  /** The half-open interval in Round's contract pins the result down:
      any integer in it is Round(x). */
  lemma RoundUnique(x: real, k: int)
    requires RoundsTo(x, k)
    ensures k == Round(x)
  {
  }

  /** Round is the nearest integer: no integer is closer to x. */
  lemma RoundNearest(x: real, k: int)
    ensures Abs(x - Round(x) as real) <= Abs(x - k as real)
  {
    var r := Round(x);
    assert Abs(x - r as real) <= 0.5;
    if k < r {
      assert k as real <= r as real - 1.0;
    } else if k > r {
      assert k as real >= r as real + 1.0;
    }
  }

  /** Whole numbers are left alone. */
  lemma RoundOfInt(n: int)
    ensures Round(n as real) == n
  {
  }

  /** Rounding never reverses an order. */
  lemma RoundMonotone(x: real, y: real)
    requires x <= y
    ensures Round(x) <= Round(y)
  {
  }

  function Abs(x: real): real {
    if x < 0.0 then -x else x
  }

  /** Decimal quantize(Decimal('0.01'), ROUND_HALF_UP): x rounded to two
      decimals, returned as the count of hundredths. */
  function Dec(x: real): (r: int)
    ensures RoundsTo(100.0 * x, r)
    ensures Abs(r as real / 100.0 - x) <= 0.005
  {
    Round(100.0 * x)
  }

  /** Quantizing a value that already has two decimals changes nothing. */
  lemma DecIdempotent(x: real)
    ensures Dec(Dec(x) as real / 100.0) == Dec(x)
  {
    var n := Dec(x);
    assert 100.0 * (n as real / 100.0) == n as real;
    RoundOfInt(n);
  }

  /** An amount of whole hundredths survives quantization. */
  lemma DecOfHundredths(n: int)
    ensures Dec(n as real / 100.0) == n
  {
    assert 100.0 * (n as real / 100.0) == n as real;
    RoundOfInt(n);
  }
}

=== FILE: outcomes.dfy ===
/** Result and error types shared by the payoff engine.
    The Python code signals failure by raising; each exception it can raise
    becomes one constructor of Error, and an operation that can raise returns
    a Result. */
module Outcomes {

  /** The kinds of failure the loan, queue and comparison code can signal. */
  datatype Error =
    | TypeError      // a queue was asked to add something that is not a loan
    | ValueError     // the budget cannot cover the minimum payments; max() of no loans
    | ZeroDivision   // a non-zero amount divided by zero
    | InvalidOperation // Decimal 0 / 0, 0 ** 0, or an infinity divided by an infinity
    | IndexError     // the last element of an empty queue, the first of an empty grid
    | UnboundName    // spread() with a key that assigns no weights
    | OutOfFuel      // a simulation that did not finish within the rounds it was given

  /** Failure-compatible result, usable with `:-`. */
  datatype Result<+T> = Success(value: T) | Failure(error: Error) {

    predicate IsFailure() {
      Failure?
    }

    function PropagateFailure<U>(): Result<U>
      requires Failure?
    {
      Failure(error)
    }

    function Extract(): T
      requires Success?
    {
      value
    }
  }

  /** An optional argument (Python's `None` default). */
  datatype Option<+T> = None | Some(value: T)
}

=== FILE: seqs.dfy ===
/** Sums, maps and filters over sequences, and the facts about them that
    survive reordering. The queue analytics (Python's sum() over a list
    comprehension) are all built from these. */
module Seqs {

  /** sum(f(x) for x in xs) */
  function SumOf<T>(xs: seq<T>, f: T -> int): int {
    if |xs| == 0 then 0 else f(xs[0]) + SumOf(xs[1..], f)
  }

  /** A property of every element survives putting one more in front. */
  lemma AllCons<T>(x: T, xs: seq<T>, p: T -> bool)
    requires p(x) && forall i :: 0 <= i < |xs| ==> p(xs[i])
    ensures forall i :: 0 <= i < |xs| + 1 ==> p(([x] + xs)[i])
  {
    forall i | 0 <= i < |xs| + 1
      ensures p(([x] + xs)[i])
    {
      if i > 0 {
        assert ([x] + xs)[i] == xs[i - 1];
      }
    }
  }

  /** sum(xs) over exact reals */
  function RealSum(xs: seq<real>): real {
    if |xs| == 0 then 0.0 else xs[0] + RealSum(xs[1..])
  }

  /** [f(x) for x in xs] */
  function MapSeq<T, U>(xs: seq<T>, f: T -> U): (r: seq<U>)
    ensures |r| == |xs|
    ensures forall i :: 0 <= i < |xs| ==> r[i] == f(xs[i])
  {
    seq(|xs|, i requires 0 <= i < |xs| => f(xs[i]))
  }

  /** [x for x in xs if p(x)], in order */
  function Filter<T>(xs: seq<T>, p: T -> bool): (r: seq<T>)
    ensures |r| <= |xs|
    ensures forall x :: x in r ==> x in xs && p(x)
    ensures forall x :: x in xs && p(x) ==> x in r
    ensures (exists i :: 0 <= i < |xs| && !p(xs[i])) ==> |r| < |xs|
  {
    if |xs| == 0 then []
    else if p(xs[0]) then [xs[0]] + Filter(xs[1..], p)
    else Filter(xs[1..], p)
  }

  lemma {:induction false} SumOfConcat<T>(a: seq<T>, b: seq<T>, f: T -> int)
    ensures SumOf(a + b, f) == SumOf(a, f) + SumOf(b, f)
  {
    if |a| == 0 {
      assert a + b == b;
    } else {
      assert (a + b)[1..] == a[1..] + b;
      SumOfConcat(a[1..], b, f);
    }
  }

  /** Taking the element at i out of a sequence takes one copy of it out of
      the multiset. */
  lemma RemoveAt<T>(ys: seq<T>, i: int)
    requires 0 <= i < |ys|
    ensures ys == ys[..i] + [ys[i]] + ys[i + 1..]
    ensures multiset(ys[..i] + ys[i + 1..]) == multiset(ys) - multiset{ys[i]}
  {
    assert ys == ys[..i] + [ys[i]] + ys[i + 1..];
    calc {
      multiset(ys);
      multiset(ys[..i] + [ys[i]] + ys[i + 1..]);
      multiset(ys[..i]) + multiset{ys[i]} + multiset(ys[i + 1..]);
    }
  }

  /** Finds a copy of xs[0] in ys and the permutation that is left. */
  lemma PermutationSplit<T>(xs: seq<T>, ys: seq<T>) returns (i: int)
    requires multiset(xs) == multiset(ys) && |xs| > 0
    ensures 0 <= i < |ys| && ys[i] == xs[0]
    ensures ys == ys[..i] + [xs[0]] + ys[i + 1..]
    ensures multiset(xs[1..]) == multiset(ys[..i] + ys[i + 1..])
  {
    assert xs == [xs[0]] + xs[1..];
    assert multiset(xs) == multiset{xs[0]} + multiset(xs[1..]);
    assert xs[0] in multiset(ys);
    i :| 0 <= i < |ys| && ys[i] == xs[0];
    RemoveAt(ys, i);
  }

  /** A sum does not depend on the order of its terms. */
  lemma {:induction false} SumOfPermutation<T>(xs: seq<T>, ys: seq<T>, f: T -> int)
    requires multiset(xs) == multiset(ys)
    ensures SumOf(xs, f) == SumOf(ys, f)
  {
    if |xs| == 0 {
      assert |ys| == |multiset(ys)| == 0;
    } else {
      var i := PermutationSplit(xs, ys);
      var rest := ys[..i] + ys[i + 1..];
      SumOfPermutation(xs[1..], rest, f);
      SumOfConcat(ys[..i] + [xs[0]], ys[i + 1..], f);
      SumOfConcat(ys[..i], [xs[0]], f);
      SumOfConcat(ys[..i], ys[i + 1..], f);
    }
  }

  /** Replacing one element changes the sum by the difference of the terms. */
  lemma {:induction false} SumOfUpdate<T>(xs: seq<T>, i: int, x: T, f: T -> int)
    requires 0 <= i < |xs|
    ensures SumOf(xs[i := x], f) == SumOf(xs, f) - f(xs[i]) + f(x)
  {
    if i > 0 {
      assert xs[i := x][1..] == xs[1..][i - 1 := x];
      SumOfUpdate(xs[1..], i - 1, x, f);
    }
  }

  /** Mapping a permutation gives a permutation of the images. */
  lemma {:induction false} MapPermutation<T, U>(xs: seq<T>, ys: seq<T>, f: T -> U)
    requires multiset(xs) == multiset(ys)
    ensures multiset(MapSeq(xs, f)) == multiset(MapSeq(ys, f))
  {
    if |xs| == 0 {
      assert |ys| == |multiset(ys)| == 0;
    } else {
      var i := PermutationSplit(xs, ys);
      MapPermutation(xs[1..], ys[..i] + ys[i + 1..], f);
      MapFirst(xs, f);
      MapAt(ys, i, f);
    }
  }

  lemma MapFirst<T, U>(xs: seq<T>, f: T -> U)
    requires |xs| > 0
    ensures multiset(MapSeq(xs, f)) == multiset{f(xs[0])} + multiset(MapSeq(xs[1..], f))
  {
    assert MapSeq(xs, f) == [f(xs[0])] + MapSeq(xs[1..], f);
  }

  lemma MapAt<T, U>(ys: seq<T>, i: int, f: T -> U)
    requires 0 <= i < |ys|
    ensures multiset(MapSeq(ys, f)) == multiset{f(ys[i])} + multiset(MapSeq(ys[..i] + ys[i + 1..], f))
  {
    var a, b := MapSeq(ys[..i], f), MapSeq(ys[i + 1..], f);
    assert MapSeq(ys, f) == a + [f(ys[i])] + b;
    assert MapSeq(ys[..i] + ys[i + 1..], f) == a + b;
  }

  lemma MapSeqConcat<T, U>(a: seq<T>, b: seq<T>, f: T -> U)
    ensures MapSeq(a + b, f) == MapSeq(a, f) + MapSeq(b, f)
  {
  }

  /** Term-by-term domination carries over to the sums. */
  lemma {:induction false} SumOfLe<T>(a: seq<T>, b: seq<T>, f: T -> int, g: T -> int)
    requires |a| == |b|
    requires forall i :: 0 <= i < |a| ==> f(a[i]) <= g(b[i])
    ensures SumOf(a, f) <= SumOf(b, g)
  {
    if |a| > 0 {
      SumOfLe(a[1..], b[1..], f, g);
    }
  }

  /** ... and one strict term makes the sum strict. */
  lemma {:induction false} SumOfLt<T>(a: seq<T>, b: seq<T>, f: T -> int, g: T -> int, k: int)
    requires |a| == |b| && 0 <= k < |a|
    requires forall i :: 0 <= i < |a| ==> f(a[i]) <= g(b[i])
    requires f(a[k]) < g(b[k])
    ensures SumOf(a, f) < SumOf(b, g)
  {
    if k == 0 {
      SumOfLe(a[1..], b[1..], f, g);
    } else {
      SumOfLt(a[1..], b[1..], f, g, k - 1);
    }
  }

  /** Dropping non-negative terms cannot raise a sum. */
  lemma {:induction false} SumOfFilterLe<T>(xs: seq<T>, p: T -> bool, f: T -> int)
    requires forall x :: x in xs ==> f(x) >= 0
    ensures SumOf(Filter(xs, p), f) <= SumOf(xs, f)
  {
    if |xs| > 0 {
      SumOfFilterLe(xs[1..], p, f);
    }
  }

  /** Splitting by a predicate and its negation loses and adds nothing. */
  lemma {:induction false} FilterPartition<T>(xs: seq<T>, p: T -> bool, q: T -> bool)
    requires forall x :: x in xs ==> q(x) == !p(x)
    ensures multiset(Filter(xs, p)) + multiset(Filter(xs, q)) == multiset(xs)
  {
    if |xs| > 0 {
      FilterPartition(xs[1..], p, q);
      FilterFirst(xs, p);
      FilterFirst(xs, q);
      assert multiset(xs) == multiset{xs[0]} + multiset(xs[1..]) by {
        assert xs == [xs[0]] + xs[1..];
      }
    }
  }

  lemma FilterFirst<T>(xs: seq<T>, p: T -> bool)
    requires |xs| > 0
    ensures multiset(Filter(xs, p)) == (if p(xs[0]) then multiset{xs[0]} else multiset{}) + multiset(Filter(xs[1..], p))
  {
  }

  /** A real sum of scaled terms is the scaled sum. */
  lemma {:induction false} RealSumScale(xs: seq<real>, ys: seq<real>, c: real)
    requires |xs| == |ys|
    requires forall i :: 0 <= i < |xs| ==> ys[i] == xs[i] * c
    ensures RealSum(ys) == RealSum(xs) * c
  {
    if |xs| > 0 {
      RealSumScale(xs[1..], ys[1..], c);
    }
  }

  /** [sum(f(x) for x in xs[0:i+1]) for i in range(len(xs))] */
  function PrefixSums<T>(xs: seq<T>, f: T -> int): seq<int> {
    seq(|xs|, i requires 0 <= i < |xs| => SumOf(xs[..i + 1], f))
  }

  lemma PrefixSumsProperties<T>(xs: seq<T>, f: T -> int)
    ensures |PrefixSums(xs, f)| == |xs|
    ensures |xs| > 0 ==> PrefixSums(xs, f)[0] == f(xs[0])
    ensures |xs| > 0 ==> PrefixSums(xs, f)[|xs| - 1] == SumOf(xs, f)
    ensures forall i :: 0 < i < |xs| ==> PrefixSums(xs, f)[i] == PrefixSums(xs, f)[i - 1] + f(xs[i])
  {
    var r := PrefixSums(xs, f);
    forall i | 0 < i < |xs|
      ensures r[i] == r[i - 1] + f(xs[i])
    {
      assert xs[..i + 1] == xs[..i] + [xs[i]];
      SumOfConcat(xs[..i], [xs[i]], f);
    }
    if |xs| > 0 {
      assert xs[..|xs|] == xs;
      assert xs[..1] == [xs[0]];
      assert [xs[0]][1..] == [];
      assert SumOf([xs[0]], f) == f(xs[0]) + SumOf([xs[0]][1..], f);
    }
  }
}

=== FILE: stable_sort.dfy ===
/** Python's list.sort(key=...) and list.sort(key=..., reverse=True): a stable
    sort by a key. Every key the engine sorts by fits in a pair of reals
    compared lexicographically; a descending sort is a stable ascending sort
    by the negated key, which is exactly how reverse=True keeps equal
    elements in their original order. */
module StableSort {

  type Key = (real, real)

  /** Lexicographic order on keys (Python's tuple comparison). */
  predicate KeyLe(a: Key, b: Key) {
    a.0 < b.0 || (a.0 == b.0 && a.1 <= b.1)
  }

  predicate SortedBy<T>(xs: seq<T>, key: T -> Key) {
    forall i, j :: 0 <= i < j < |xs| ==> KeyLe(key(xs[i]), key(xs[j]))
  }

  /** Places x in front of the first element whose key is not below x's. */
  function Insert<T>(x: T, ys: seq<T>, key: T -> Key): (r: seq<T>)
    ensures multiset(r) == multiset(ys) + multiset{x}
    ensures |r| == |ys| + 1
    ensures SortedBy(ys, key) ==> SortedBy(r, key)
  {
    if |ys| == 0 then [x]
    else if KeyLe(key(x), key(ys[0])) then [x] + ys
    else
      var rest := Insert(x, ys[1..], key);
      assert ys == [ys[0]] + ys[1..];
      HeadStaysFirst(x, ys, key, rest);
      [ys[0]] + rest
  }

  /** When x goes after the head of a sorted ys, the head stays below
      everything the insertion into the tail produces. */
  lemma HeadStaysFirst<T>(x: T, ys: seq<T>, key: T -> Key, rest: seq<T>)
    requires |ys| > 0 && !KeyLe(key(x), key(ys[0]))
    requires multiset(rest) == multiset(ys[1..]) + multiset{x}
    ensures SortedBy(ys, key) ==> forall j :: 0 <= j < |rest| ==> KeyLe(key(ys[0]), key(rest[j]))
  {
    if SortedBy(ys, key) {
      forall j | 0 <= j < |rest|
        ensures KeyLe(key(ys[0]), key(rest[j]))
      {
        assert rest[j] in multiset(rest);
        if rest[j] != x {
          assert rest[j] in multiset(ys[1..]);
          var k :| 0 <= k < |ys[1..]| && ys[1..][k] == rest[j];
          assert ys[k + 1] == rest[j];
        }
      }
    }
  }

  /** Stable insertion sort: the earliest of equal-keyed elements stays first. */
  function SortBy<T>(xs: seq<T>, key: T -> Key): (r: seq<T>)
    ensures multiset(r) == multiset(xs)
    ensures |r| == |xs|
    ensures SortedBy(r, key)
  {
    if |xs| == 0 then []
    else
      assert xs == [xs[0]] + xs[1..];
      Insert(xs[0], SortBy(xs[1..], key), key)
  }

  /** The elements whose key is exactly k, in order. */
  function WithKey<T>(xs: seq<T>, key: T -> Key, k: Key): seq<T> {
    if |xs| == 0 then []
    else if key(xs[0]) == k then [xs[0]] + WithKey(xs[1..], key, k)
    else WithKey(xs[1..], key, k)
  }

  lemma {:induction false} WithKeyInsert<T>(x: T, ys: seq<T>, key: T -> Key, k: Key)
    ensures WithKey(Insert(x, ys, key), key, k)
         == (if key(x) == k then [x] else []) + WithKey(ys, key, k)
  {
    if |ys| == 0 {
    } else if KeyLe(key(x), key(ys[0])) {
      assert ([x] + ys)[1..] == ys;
    } else {
      var rest := Insert(x, ys[1..], key);
      var y := ys[0];
      assert Insert(x, ys, key) == [y] + rest;
      assert ([y] + rest)[1..] == rest;
      WithKeyInsert(x, ys[1..], key, k);
      var front := if key(y) == k then [y] else [];
      assert WithKey([y] + rest, key, k) == front + WithKey(rest, key, k);
      assert WithKey(ys, key, k) == front + WithKey(ys[1..], key, k);
      assert key(x) == k ==> key(y) != k;
    }
  }

  /** Stability: among the elements of any one key, the sort keeps the
      input order. */
  lemma {:induction false} SortByStable<T>(xs: seq<T>, key: T -> Key, k: Key)
    ensures WithKey(SortBy(xs, key), key, k) == WithKey(xs, key, k)
  {
    if |xs| > 0 {
      SortByStable(xs[1..], key, k);
      WithKeyInsert(xs[0], SortBy(xs[1..], key), key, k);
    }
  }

  /** Sorting an already sorted sequence returns it unchanged. */
  lemma {:induction false} SortBySortedIsIdentity<T>(xs: seq<T>, key: T -> Key)
    requires SortedBy(xs, key)
    ensures SortBy(xs, key) == xs
  {
    if |xs| > 0 {
      assert SortedBy(xs[1..], key);
      SortBySortedIsIdentity(xs[1..], key);
      if |xs| > 1 {
        assert KeyLe(key(xs[0]), key(xs[1..][0]));
      }
      assert [xs[0]] + xs[1..] == xs;
    }
  }

  /** Sorting twice by the same key is sorting once. */
  lemma SortByIdempotent<T>(xs: seq<T>, key: T -> Key)
    ensures SortBy(SortBy(xs, key), key) == SortBy(xs, key)
  {
    SortBySortedIsIdentity(SortBy(xs, key), key);
  }
}
